=== FILE: README.md ===
# Verifiable Tetris: game engine and hash-chained move ledger

This project models the two sequential engines of a browser Tetris game in
which every accepted move is written to a hash-chained log:

- the **game engine** (`TetrisGame`, game/TetrisGame.js): a 20 x 10 board of
  cells that are empty or hold a colour, the seven tetrominoes, the collision
  test, clockwise rotation, translation, hard drop, gravity (`update`), the
  lock step (`placePiece`), row clearing with scoring, level and gravity
  recomputation (`clearLines`), the `makeMove` gate (game over, 100 ms rate
  limit, whether a proof is emitted) and `restart`;
- the **move ledger** (`ProofSystem`, game/ProofSystem.js): `createMoveProof`
  appends a record holding the move data, its hash, and `valid: true`;
  `verifyMoveProof` re-hashes a record; `verifyGameHistory` scans the ledger and
  stops at the first record that fails its own hash or its link to the
  previous record; `serializeGameState` picks the recorded part of a
  snapshot; `clearHistory` empties the ledger.

Everything is immutable data and pure transition functions. The
collision test, the row-clearing loop and the ledger scan are also written
as loops (`Board.IsValidPosition`, `Lines.ClearLines`,
`Ledger.VerifyGameHistory`) and proved equal to their reference definitions.

Modelling choices:

- `Math.random()` (which piece `createNewPiece` picks) is a `Kind` argument.
  `Date.now()` is the `now` argument of `Engine.MakeMove`.
- SHA-256 over `JSON.stringify` is the argument `H: Fields -> string`. A JSON
  object is an ordered list of (key, value) fields, because the serialiser
  writes ordinary keys in insertion order and that order decides what is
  hashed. A key is one of the names the program writes, or `Other(name)` for
  any other name. `Json.Canonical` and `Json.CanonicalFields` admit an object
  only when each key occurs once, no `Other` key re-spells a named one, and
  no `Other` key looks like an array index. `JSON.stringify` would move such
  index keys to the front in numeric order (`Json.ReorderedOrRepeatedKeysNotCanonical`
  shows the lists this rules out). For canonical lists, the key spellings are
  distinct (`Json.SpellingInjective`) and are written in list order.
  `Injective(H)` asks for distinct hashes only of distinct canonical field
  lists. Every record and snapshot the program builds is canonical
  (`Snapshot.SerializeCanonical`, `Ledger.CreatedRecordCanonical`). Lemmas
  that need collision freedom require `Injective(H)` and canonical records
  and values.
- The animation loop passes `deltaTime` as a difference of frame
  timestamps, which is fractional (components/GameUI.jsx:26-28). So `dt`
  and `dropTime` are `real` milliseconds. `dropInterval` and the move
  timestamps are whole milliseconds.
- Colour strings are the seven `Color` values. `Shapes.Hex` gives their
  string form, which is injective.
- `Engine.Inv` is what every game the engine builds satisfies:
  - the board is 20 x 10;
  - both pieces are rectangles of four filled cells;
  - the current piece is never above the top row, and the next piece is on row 0;
  - a live game's piece fits;
  - score and lines are non-negative, and level and gravity follow from the line count.

  Pieces spawn on row 0 and only move sideways or down. So the `y >= 0` guard of the lock loop never drops a cell, and the board's cell count is conserved (`Invariants.PlacePieceConservesCells`).
- The two engines are joined by `Engine.Session` (a game and its ledger).
  `Engine.MakeMove` returns the new session and `{success, proof}`.
- The game's page promises that every move generates a cryptographic proof
  for verification (app.jsx:68, src/App.jsx:50). Its proof log verifies
  single records and the whole ledger on demand (components/ProofLog.jsx:8-48).
  As written, the code makes every freshly appended record fail that check.
  The model keeps the code's behaviour as `StripHash` and proves the
  corrected `StripHashAndValid` alongside it; see Findings.

## Model

| member | source | states |
|---|---|---|
| Shapes.Rotate | game/TetrisGame.js:170-182 | an r x c matrix becomes a c x r matrix, with the input cell (i, j) at row j, column r-1-i |
| Shapes.RotateTwice | game/TetrisGame.js:170-182 | two quarter turns keep the dimensions and send cell (i, j) to (r-1-i, c-1-j) |
| Shapes.RotateFourTimes | game/TetrisGame.js:170-182 | four quarter turns give back the original matrix |
| Shapes.RotateKeepsBlock | game/TetrisGame.js:170-182 | a rotated piece still has a filled cell |
| Shapes.ShapeOf | game/TetrisGame.js:19-48 | every catalogue shape is a rectangle with a filled cell, 1-2 rows of 2-4 columns |
| Shapes.HexInjective | game/TetrisGame.js:19-48 | distinct catalogue colours have distinct colour strings |
| Board.EmptyBoard | game/TetrisGame.js:53-55 | the new board is 20 rows of 10 cells, all empty |
| Board.IsValidPosition | game/TetrisGame.js:201-217 | the scan answers true exactly when every filled cell lands in columns 0..9, above row 20, and on an empty cell when its row is on the board; rows above the top are never checked |
| Board.FitsAboveFloor | game/TetrisGame.js:201-217 | a piece with a filled cell fits only at y < 20, which bounds how far a piece can fall |
| Board.NewPiece | game/TetrisGame.js:63-73 | a spawned piece is a catalogue shape and colour on row 0, horizontally centred and inside the walls |
| Board.NewPieceFitsEmpty | game/TetrisGame.js:63-73 | every spawned piece fits on an empty board |
| Board.Stamp | game/TetrisGame.js:219-233 | every filled piece cell on the board takes the piece's colour, and every other cell keeps its value |
| Lines.Keep | game/TetrisGame.js:244-254 | the surviving rows are exactly the rows of the input that are not full, and none of them is full |
| Lines.KeepCount | game/TetrisGame.js:244-254 | the number of rows removed is the number of full rows |
| Lines.ClearLines | game/TetrisGame.js:244-254 | the bottom-up splice loop, which re-examines a row after a splice, yields the reference board and the number of rows removed |
| Lines.ClearedWellFormed | game/TetrisGame.js:244-254 | clearing keeps 20 rows of 10 cells |
| Lines.ClearedHasNoFullRow | game/TetrisGame.js:244-254 | no full row survives clearing |
| Lines.ClearedRemovesExactlyFullRows | game/TetrisGame.js:244-254 | the removed count is the number of full rows; the top rows are that many empty rows; beneath them come the non-full input rows, in order |
| Lines.KeepNoFull | game/TetrisGame.js:244-254 | a board with no full row loses nothing |
| Lines.ClearedIdempotent | game/TetrisGame.js:244-254 | clearing a cleared board changes nothing |
| Cells.StampCount | game/TetrisGame.js:219-233 | stamping a fitting piece whose top row is on the board adds exactly the piece's filled cells to the board |
| Cells.ClearedFilledCount | game/TetrisGame.js:244-254 | line clearing removes exactly 10 filled cells per full row and no other cell |
| Cells.RotateKeepsCellCount | game/TetrisGame.js:170-182 | a quarter turn keeps a shape's number of filled cells |
| Cells.CatalogueCellCount | game/TetrisGame.js:19-48 | every catalogue tetromino has four filled cells |
| Json.Get | game/ProofSystem.js:57-75 | a property read finds a value exactly when the key is present |
| Json.SpellingInjective | game/ProofSystem.js:11 | two canonical keys have the same JSON spelling exactly when they are the same key |
| Json.Remove | game/ProofSystem.js:57 | the rest pattern leaves no field with the removed key, keeps only fields of the input, and changes nothing when the key is absent |
| Json.RemoveAppend | game/ProofSystem.js:57 | removing a key distributes over concatenation of field lists |
| Json.GetAppend | game/ProofSystem.js:34-38 | a read of a concatenation finds the first list's field when it has the key |
| Snapshot.SerializeGameState | game/ProofSystem.js:45-53 | the snapshot is an object with exactly the keys board, currentPiece, score, level, lines, in that order |
| Snapshot.SerializeCanonical | game/ProofSystem.js:45-53 | every snapshot uses only named keys, each once, so it is canonical |
| Snapshot.SerializeKeepsExactlyFiveFields | game/ProofSystem.js:45-53 | two views have the same snapshot exactly when they agree on board, piece, score, level and lines; `gameOver` is dropped |
| Ledger.MoveDataFields | game/ProofSystem.js:19-30 | the move data holds the move type, time, both snapshots and `moveIndex` = history length, has `previousMoveHash` exactly when the history is non-empty (then equal to the last record's hash), and holds no `hash` or `valid` |
| Ledger.CreateMoveProof | game/ProofSystem.js:18-42 | exactly one record is appended and earlier records stay as they were; the record is the move data followed by the hash of that data and `valid: true` |
| Ledger.CreatedRecordFields | game/ProofSystem.js:19-38 | the appended record's index is the old history length, and its link is the previous record's hash, or absent for the first record |
| Ledger.CreatedRecordCanonical | game/ProofSystem.js:18-38 | a record created after a canonical record is canonical: named keys only, none written twice |
| Ledger.ClearHistory | game/ProofSystem.js:90-92 | the ledger becomes empty |
| Ledger.AfterClearHistory | game/ProofSystem.js:90-92 | after clearing, the next record is the only one, is numbered 0, and has no `previousMoveHash` |
| Ledger.Stripped | game/ProofSystem.js:57 | the re-hashed list never holds `hash`; as written it holds `valid` exactly when the record does; the corrected one never holds `valid`; it keeps only fields of the record |
| Ledger.VerifyMoveProof | game/ProofSystem.js:56-60 | a record passes only when it has a string `hash` |
| Ledger.VerifyMoveProofMeaning | game/ProofSystem.js:56-60 | a record passes exactly when its stored `hash` is the string hash of the stripped record |
| Ledger.HonestRecordFailsVerification | game/ProofSystem.js:32-38 | as written, with a collision-free hash, no record made by `createMoveProof` passes `verifyMoveProof` |
| Ledger.HonestRecordVerifies | game/ProofSystem.js:56-60 | when `valid` is stripped as well as `hash`, every record made by `createMoveProof` verifies, for any hash |
| Ledger.TamperedRecordFails | game/ProofSystem.js:56-60 | changing any move-data field of an honest canonical record to another canonical value makes the corrected check fail, given a collision-free hash |
| Ledger.ValidFlagUnchecked | game/ProofSystem.js:32-38 | under the corrected re-hash, setting `valid` to false in an honest record still verifies, for any hash |
| Ledger.Scan | game/ProofSystem.js:63-82 | the verdict is valid exactly when every record passes; otherwise it names the least failing index, every earlier record passes, and the reason is "chain broken" exactly when the record's own hash is fine |
| Ledger.ScanFindsFirstFailure | game/ProofSystem.js:63-82 | the first record that fails is the one reported |
| Ledger.VerifyGameHistory | game/ProofSystem.js:63-82 | the short-circuiting loop returns the scan's verdict, so it is valid exactly when every record passes both checks; being a function of the ledger alone, it gives the same answer every time |
| Ledger.CreateKeepsHonest | game/ProofSystem.js:18-42 | appending with `createMoveProof` keeps indices equal to positions and every link equal to the predecessor's hash |
| Ledger.HonestLedgerRejectedAsWritten | game/ProofSystem.js:63-82 | as written, with a collision-free hash, every non-empty ledger built by `createMoveProof` is rejected at index 0 on its own hash |
| Ledger.HonestLedgerAccepted | game/ProofSystem.js:63-82 | with the corrected re-hash, every ledger built by `createMoveProof` verifies |
| Ledger.TamperedLedgerRejected | game/ProofSystem.js:63-82 | changing one move-data field of record i of an honest ledger to another canonical value is reported at index i, as a failed hash |
| Ledger.HonestHashesDistinct | game/ProofSystem.js:19-32 | two records of an honest ledger carry distinct hashes, given a collision-free hash |
| Ledger.ReorderedLedgerRejected | game/ProofSystem.js:72-78 | when the first i > 0 records of an honest ledger are kept and position i holds any other record of it, the scan reports a broken chain at index i. This covers moving a record, swapping, removing one or more records, and replaying an earlier record |
| Ledger.SplicedLedgerRejected | game/ProofSystem.js:72-78 | removing a record strictly inside an honest ledger is reported as a broken chain at its position |
| Ledger.SwappedLedgerRejected | game/ProofSystem.js:72-78 | swapping record i > 0 with a later record of an honest ledger is reported as a broken chain at index i |
| Ledger.FrontSwapReportedAtOne | game/ProofSystem.js:63-82 | swapping record 0 with a later record is reported as a broken chain at index 1, not 0, because record 0's link is never checked |
| Ledger.RotatedLedgerReportedAtEnd | game/ProofSystem.js:63-82 | moving record 0 of an honest ledger to the end is reported only at the last index, where the old record 0 has no link |
| Ledger.DroppedFirstRecordUndetected | game/ProofSystem.js:63-82 | dropping the first record of an honest ledger goes unnoticed, since `moveIndex` is never checked and record 0 has no link |
| Engine.GravityInterval | game/TetrisGame.js:260-261 | the interval is the larger of 50 and 1000 - (level-1)*50: at least 50, at most 1000 from level 1 on, 1000 at level 1 |
| Engine.NewGame | game/TetrisGame.js:3-61 | a new game has an empty board, two fresh pieces, score 0, level 1, lines 0, gravity 1000 ms, and satisfies the game invariant |
| Engine.GetGameState | game/TetrisGame.js:75-84 | the view holds the board, the current piece, score, level, lines and the game-over flag of the game |
| Engine.Restart | game/TetrisGame.js:283-294 | restart gives a new game and an empty ledger |
| Engine.MovePiece | game/TetrisGame.js:142-155 | the move succeeds exactly when the target is valid; only then is the piece moved, and otherwise nothing changes |
| Engine.RotatePiece | game/TetrisGame.js:157-168 | rotation succeeds exactly when the rotated shape is valid at the same origin; only then is the shape replaced, and otherwise nothing changes |
| Engine.LineBonus | game/TetrisGame.js:258 | 1 to 4 rows score 100, 300, 500, 800; any other count falls back to 100, so the bonus is always positive |
| Engine.ScoreLines | game/TetrisGame.js:256-262 | for k > 0 cleared rows, lines grow by k, score by the line bonus times the level before the update, and level and gravity are recomputed from the new line count; k = 0 changes nothing |
| Engine.ClearFullRows | game/TetrisGame.js:244-263 | the board is cleared and lines grow by exactly the number of full rows |
| Engine.PlacePiece | game/TetrisGame.js:219-242 | the piece is stamped, rows cleared, the next piece promoted and a new one drawn; score, lines, level and gravity are those of clearing the stamped board, lines grow by its number of full rows; timers are kept; the game ends exactly when the promoted piece does not fit |
| Engine.Fall | game/TetrisGame.js:188-191 | the drop loop stops at the first row below which the piece cannot move, and every row it passed was valid |
| Engine.Dropped | game/TetrisGame.js:184-191 | after the drop loop only the piece row and the score have changed; the score grew by the rows descended, every row passed was valid, and the next row down is not |
| Engine.HardDrop | game/TetrisGame.js:184-199 | hard drop always succeeds and locks the fallen piece after adding one point per row descended |
| Engine.Update | game/TetrisGame.js:265-281 | a finished game is untouched; below the interval only the timer grows; at the interval the timer resets and the piece moves down one row or locks, and the call reports true |
| Engine.Dispatch | game/TetrisGame.js:98-122 | each move type runs its operation: left, right and soft drop succeed exactly when the shifted piece fits and then move it; rotate likewise with the rotated shape; hard drop always succeeds and locks the fallen piece; an automatic drop is `update`; an unknown type does nothing; player moves stamp `lastMoveTime`, the others keep it |
| Engine.MakeMove | game/TetrisGame.js:86-140 | a finished game or a player move within 100 ms is refused with no change; an admitted move leaves the game and the success flag that the dispatch gives, and a player move stamps `lastMoveTime`; a proof is appended exactly when the move was admitted and succeeded or is an automatic drop, and it is the record `createMoveProof` makes from the views before and after |
| Invariants.IntervalBounds | game/TetrisGame.js:256-262 | under the invariant gravity lies in [50, 1000] |
| Invariants.PlacePieceKeepsInv | game/TetrisGame.js:219-263 | locking keeps the board shape, the level/line/gravity relation, and a fitting piece while the game is live; score, lines and level never decrease |
| Invariants.PlacePieceConservesCells | game/TetrisGame.js:219-263 | locking a piece in a live game changes the number of filled cells by the piece's four cells minus ten per cleared line |
| Invariants.MovePieceKeepsInv | game/TetrisGame.js:142-155 | a move sideways or down keeps the invariant and the counters |
| Invariants.RotatePieceKeepsInv | game/TetrisGame.js:157-168 | rotation keeps the invariant and the counters |
| Invariants.FallFits | game/TetrisGame.js:184-192 | the piece where the drop loop stops still fits |
| Invariants.HardDropKeepsInv | game/TetrisGame.js:184-199 | hard drop keeps the invariant and never lowers score, lines or level |
| Invariants.UpdateKeepsInv | game/TetrisGame.js:265-281 | gravity keeps the invariant and never lowers score, lines or level |
| Invariants.DispatchKeepsInv | game/TetrisGame.js:98-122 | every move type keeps the invariant and never lowers score, lines or level |
| Invariants.MakeMoveKeepsInv | game/TetrisGame.js:86-140 | every `makeMove` keeps the invariant (the live piece always fits), never lowers score, lines or level, and keeps an honest ledger honest |
| Invariants.RestartEstablishesInv | game/TetrisGame.js:283-294 | after restart the invariant holds and the ledger is honest |
| Invariants.TenLinesReachLevelTwo | game/TetrisGame.js:256-262 | the tenth cleared line, cleared alone, scores 100 at level 1 and brings level 2 with 950 ms gravity |

## Left out

- SHA-256, `crypto.subtle`, `TextEncoder` and the hex encoding (game/ProofSystem.js:9-15) are foreign primitives. They are the hash argument `H`.
- `exportProof` (game/ProofSystem.js:95-97) and `getMoveHistory` are a library serialiser and a getter.
- The unused `gameState` field of `ProofSystem` is not modelled.
- `async`/`await` and the `try`/`catch` that logs errors (game/TetrisGame.js:97-139) are left out. `makeMove` is one atomic step, and a hash that throws is not modelled. In the program, the key handler (components/GameUI.jsx:16) and the gravity loop (components/GameUI.jsx:28) can each start a `makeMove` while another is still waiting. Two `createMoveProof` calls can then both read `moveHistory.length` and the last `hash` (game/ProofSystem.js:24-29) before either pushes its record after the hash is awaited (game/ProofSystem.js:32-40). The result is two records with the same `moveIndex` and `previousMoveHash`. The atomic model excludes exactly this interleaving.
- `Math.random` and `Date.now` are arguments, as described above.
- The React view, input wiring, animation loop and file download are not part of this model. They have no invariants.
- The `!this.currentPiece` guards (game/TetrisGame.js:143, 158, 185, 220, 266) are dead code: the constructor sets the piece and nothing clears it. Pieces are plain values.
- Invariants.MovePieceKeepsInv: requires dy >= 0. `movePiece` accepts any dy, but the game calls it only with dy 0 or 1 (game/TetrisGame.js:100-112, 188, 273). An upward move could take the piece above the top row, which the invariant excludes.
- Board.Stamp: writes only cells inside the board. In the source (game/TetrisGame.js:228-229), a column of 10 would append an 11th cell to the row, a larger column would lengthen the row and leave empty slots before the written cell, and a negative column would add a non-index property. The first two change the row's length, which `every` in `clearLines` would see. Under the invariant the piece always fits, so none of these happens.
- Shapes.Rotate: requires a rectangular, non-empty matrix. The source reads the column count from row 0; every shape the game builds is rectangular.
- Json.Remove: states that the result lacks the key and keeps only input fields, not that it is the input's exact filtered list. `Json.RemoveAppend` and `Ledger.SealedParts` give the exact form where the proofs need it.
- Hash equality in `verifyMoveProof` and the chain check compares JSON values structurally. In the source, a `previousMoveHash` compares as a string; a non-string value would compare by reference. Honest ledgers only hold strings.
- Ledger.TamperedRecordFails: covers changes to move-data fields only. `valid` is added after hashing, so under the corrected re-hash it is covered by nothing; `Ledger.ValidFlagUnchecked` shows that flipping it to false still verifies.
- Ledger.TamperedLedgerRejected: covers changes to move-data fields only, for the same reason; a ledger whose `valid` flags were flipped is still accepted.
- Ledger.TamperedRecordFails, Ledger.TamperedLedgerRejected, Ledger.HonestRecordFailsVerification, Ledger.HonestHashesDistinct: require canonical records, directly or through `Honest`. A canonical record has each key once, no `Other` key re-spelling a named one, and no key that looks like an array index. Only for such lists are distinct key spellings written in list order, so that distinct data can be taken to hash differently. Every record the program builds is canonical.
- Numbers: a JSON number (`JNum`) holds any integer, while JavaScript numbers are doubles. Distinct integers beyond 2^53 could print alike. The program's numbers (scores, counters, coordinates, millisecond timestamps) stay far below that bound.
- The game's `boardHeight` row loop in `clearLines` runs over the board's length, which is 20 under the invariant.

## Findings

| source | as written | input that shows it | evidently intended | confidence | as-written member | corrected member |
|---|---|---|---|---|---|---|
| game/ProofSystem.js:32-38, 56-60 | the hash is taken over the move data before `valid: true` is added, but verification strips only `hash` and re-hashes a list that still holds `valid: true` | any record returned by `createMoveProof`: the re-hashed list is one field longer than the hashed one, so with a collision-free hash the digests differ and `verifyGameHistory` rejects any non-empty ledger at index 0 | strip `valid` as well, so that an honest record verifies and an honest ledger is accepted; adding `valid` before hashing would also make the flag tamper-evident, which stripping it does not (`Ledger.ValidFlagUnchecked`) | high, not executed | Ledger.HonestRecordFailsVerification | Ledger.HonestRecordVerifies |

=== FILE: board.dfy ===
/** The 20 x 10 board, the falling piece, the collision test and the
    lock-time stamping of a piece into the board (game/TetrisGame.js). */
module Board {
  import opened Shapes

  const Width: int := 10
  const Height: int := 20

  /** A board cell: `0` or a colour string. */
  datatype Cell = Empty | Filled(color: Color)

  type Grid = seq<seq<Cell>>

  predicate WellFormed(b: Grid) {
    && |b| == Height
    && forall r :: 0 <= r < |b| ==> |b[r]| == Width
  }

  function EmptyRow(): (row: seq<Cell>)
    ensures |row| == Width
    ensures forall c :: 0 <= c < |row| ==> row[c] == Empty
  {
    seq(Width, _ => Empty)
  }

  function EmptyBoard(): (b: Grid)
    ensures WellFormed(b)
    ensures forall r, c :: 0 <= r < |b| && 0 <= c < |b[r]| ==> b[r][c] == Empty
  {
    seq(Height, _ => EmptyRow())
  }

  /** A falling piece: shape, colour and the board position of the
      shape's top-left cell. */
  datatype Piece = Piece(shape: Shape, color: Color, x: int, y: int)

  /** What every piece the game holds satisfies: a rectangular shape with
      at least one filled cell. */
  predicate PieceOk(p: Piece) {
    IsMatrix(p.shape) && HasBlock(p.shape)
  }

  /** `board[y] && board[y][x]`: the cell exists and holds a colour. */
  predicate Occupied(b: Grid, x: int, y: int) {
    0 <= y < |b| && 0 <= x < |b[y]| && b[y][x].Filled?
  }

  /** A filled shape cell may land at (x, y): inside the side walls, above
      the floor, and on a free cell when it is on the board. A cell above
      the top (y < 0) is never checked against the board. */
  predicate CellFree(b: Grid, x: int, y: int) {
    0 <= x < Width && y < Height && (y < 0 || !Occupied(b, x, y))
  }

  /** The collision rule: every filled cell of `s`, placed with its
      top-left at (x, y), lands on a free cell. */
  predicate Fits(b: Grid, s: Shape, x: int, y: int) {
    forall r, c :: 0 <= r < |s| && 0 <= c < |s[r]| && s[r][c] ==> CellFree(b, x + c, y + r)
  }

  /** `isValidPosition`: the row-by-row, cell-by-cell scan that stops at
      the first filled cell which does not land on a free cell. */
  method IsValidPosition(b: Grid, s: Shape, x: int, y: int) returns (ok: bool)
    ensures ok <==> Fits(b, s, x, y)
  {
    var row := 0;
    while row < |s|
      invariant 0 <= row <= |s|
      invariant forall r, c :: 0 <= r < row && 0 <= c < |s[r]| && s[r][c] ==> CellFree(b, x + c, y + r)
    {
      var col := 0;
      while col < |s[row]|
        invariant 0 <= col <= |s[row]|
        invariant forall c :: 0 <= c < col && s[row][c] ==> CellFree(b, x + c, y + row)
      {
        if s[row][col] {
          var newX := x + col;
          var newY := y + row;
          if newX < 0 || newX >= Width || newY >= Height
             || (newY >= 0 && newY < |b| && newX < |b[newY]| && b[newY][newX] != Empty) {
            return false;
          }
        }
        col := col + 1;
      }
      row := row + 1;
    }
    return true;
  }

  /** A piece whose shape has a filled cell fits only strictly above the
      floor. */
  lemma FitsAboveFloor(b: Grid, s: Shape, x: int, y: int)
    requires HasBlock(s) && Fits(b, s, x, y)
    ensures y < Height
  {
    var r, c :| 0 <= r < |s| && 0 <= c < |s[r]| && s[r][c];
    assert CellFree(b, x + c, y + r);
  }

  /** `createNewPiece`: a fresh copy of a catalogue piece, centred
      horizontally (`floor(10/2) - floor(cols/2)`) on the top row. */
  function NewPiece(k: Kind): (p: Piece)
    ensures PieceOk(p)
    ensures p.shape == ShapeOf(k) && p.color == ColorOf(k)
    ensures p.y == 0
    ensures 0 <= p.x && p.x + |p.shape[0]| <= Width
    ensures 2 * p.x + |p.shape[0]| == Width + |p.shape[0]| % 2
  {
    var s := ShapeOf(k);
    Piece(s, ColorOf(k), Width / 2 - |s[0]| / 2, 0)
  }

  /** A freshly spawned piece fits on an empty board. */
  lemma NewPieceFitsEmpty(k: Kind)
    ensures var p := NewPiece(k); Fits(EmptyBoard(), p.shape, p.x, p.y)
  {
    var p := NewPiece(k);
    forall r, c | 0 <= r < |p.shape| && 0 <= c < |p.shape[r]| && p.shape[r][c]
      ensures CellFree(EmptyBoard(), p.x + c, p.y + r)
    {
      assert |p.shape[r]| == |p.shape[0]|;
    }
  }

  /** Board coordinates (x, y) are covered by a filled cell of `p`. */
  predicate Covers(p: Piece, x: int, y: int) {
    && 0 <= y - p.y < |p.shape|
    && 0 <= x - p.x < |p.shape[y - p.y]|
    && p.shape[y - p.y][x - p.x]
  }

  /** The copy loop of `placePiece`: every filled cell of the piece that
      lies on the board takes the piece's colour; cells above the top are
      dropped and every other cell keeps its value. */
  function Stamp(b: Grid, p: Piece): (out: Grid)
    ensures |out| == |b|
    ensures forall y :: 0 <= y < |b| ==> |out[y]| == |b[y]|
    ensures forall r, c :: 0 <= r < |p.shape| && 0 <= c < |p.shape[r]| && p.shape[r][c]
              && 0 <= p.y + r < |b| && 0 <= p.x + c < |b[p.y + r]|
              ==> out[p.y + r][p.x + c] == Filled(p.color)
    ensures forall y, x :: 0 <= y < |b| && 0 <= x < |b[y]| && !Covers(p, x, y) ==> out[y][x] == b[y][x]
  {
    seq(|b|, y requires 0 <= y < |b| =>
      seq(|b[y]|, x requires 0 <= x < |b[y]| => if Covers(p, x, y) then Filled(p.color) else b[y][x]))
  }
}

=== FILE: cells.dfy ===
/** Counting filled cells on the board and in a shape, and how the two
    steps of locking a piece change the count (game/TetrisGame.js):
    stamping adds exactly the piece's cells, and line clearing takes
    away a full row's worth of cells per cleared line. */
module Cells {
  import opened Shapes
  import opened Board
  import opened Lines

  /** The sum of a sequence of counts. */
  function Sum(s: seq<nat>): nat {
    if |s| == 0 then 0 else s[0] + Sum(s[1..])
  }

  lemma {:induction false} SumConcat(a: seq<nat>, b: seq<nat>)
    ensures Sum(a + b) == Sum(a) + Sum(b)
  {
    if |a| == 0 {
      assert a + b == b;
    } else {
      assert (a + b)[1..] == a[1..] + b;
      SumConcat(a[1..], b);
    }
  }

  lemma SumSingle(v: nat)
    ensures Sum([v]) == v
  {
    assert [v][1..] == [];
  }

  /** Summing entry by entry. */
  lemma {:induction false} SumPointwise(a: seq<nat>, b: seq<nat>, c: seq<nat>)
    requires |a| == |b| == |c|
    requires forall i :: 0 <= i < |c| ==> c[i] == a[i] + b[i]
    ensures Sum(c) == Sum(a) + Sum(b)
  {
    if |c| > 0 {
      SumPointwise(a[1..], b[1..], c[1..]);
    }
  }

  lemma {:induction false} SumZeros(s: seq<nat>)
    requires forall i :: 0 <= i < |s| ==> s[i] == 0
    ensures Sum(s) == 0
  {
    if |s| > 0 {
      SumZeros(s[1..]);
    }
  }

  lemma {:induction false} SumOnes(s: seq<nat>)
    requires forall i :: 0 <= i < |s| ==> s[i] == 1
    ensures Sum(s) == |s|
  {
    if |s| > 0 {
      SumOnes(s[1..]);
    }
  }

  /** Changing one entry changes the sum by the difference. */
  lemma {:induction false} SumUpdate(a: seq<nat>, i: nat, v: nat)
    requires i < |a|
    ensures Sum(a[i := v]) + a[i] == Sum(a) + v
  {
    if i == 0 {
      assert a[i := v][1..] == a[1..];
    } else {
      assert a[i := v][1..] == a[1..][i - 1 := v];
      SumUpdate(a[1..], i - 1, v);
    }
  }

  /** `s` placed at offset `d` in a window of `n` slots, zero elsewhere. */
  function Shift(n: nat, d: int, s: seq<nat>): (w: seq<nat>)
    ensures |w| == n
    ensures forall x :: 0 <= x < n ==> w[x] == if 0 <= x - d < |s| then s[x - d] else 0
  {
    seq(n, x requires 0 <= x < n => if 0 <= x - d < |s| then s[x - d] else 0)
  }

  /** Shifting loses nothing when every non-zero entry lands in the
      window. */
  lemma {:induction false} SumShift(n: nat, d: int, s: seq<nat>)
    requires forall i :: 0 <= i < |s| && s[i] != 0 ==> 0 <= d + i < n
    ensures Sum(Shift(n, d, s)) == Sum(s)
  {
    if |s| == 0 {
      SumZeros(Shift(n, d, s));
    } else {
      var init := s[..|s| - 1];
      var last := s[|s| - 1];
      SumShift(n, d, init);
      assert s == init + [last];
      SumConcat(init, [last]);
      SumSingle(last);
      var x := d + |s| - 1;
      if 0 <= x < n {
        assert Shift(n, d, s) == Shift(n, d, init)[x := last];
        SumUpdate(Shift(n, d, init), x, last);
      } else {
        assert Shift(n, d, s) == Shift(n, d, init);
      }
    }
  }

  function Reverse(s: seq<nat>): (r: seq<nat>)
    ensures |r| == |s|
    ensures forall k :: 0 <= k < |s| ==> r[k] == s[|s| - 1 - k]
  {
    seq(|s|, k requires 0 <= k < |s| => s[|s| - 1 - k])
  }

  lemma {:induction false} SumReverse(s: seq<nat>)
    ensures Sum(Reverse(s)) == Sum(s)
  {
    if |s| > 0 {
      var init := s[..|s| - 1];
      SumReverse(init);
      assert Reverse(s)[1..] == Reverse(init);
      assert s == init + [s[|s| - 1]];
      SumConcat(init, [s[|s| - 1]]);
      SumSingle(s[|s| - 1]);
    }
  }

  /** 1 for each filled cell of a board row, 0 for each empty one. */
  function CellMask(row: seq<Cell>): seq<nat> {
    seq(|row|, x requires 0 <= x < |row| => if row[x].Filled? then 1 else 0)
  }

  /** The number of filled cells of a board row. */
  function RowFilled(row: seq<Cell>): nat {
    Sum(CellMask(row))
  }

  function RowCounts(b: Grid): seq<nat> {
    seq(|b|, y requires 0 <= y < |b| => RowFilled(b[y]))
  }

  /** The number of filled cells on the board. */
  function FilledCount(b: Grid): nat {
    Sum(RowCounts(b))
  }

  /** 1 for each filled cell of a shape row, 0 for each empty one. */
  function BlockMask(row: seq<bool>): seq<nat> {
    seq(|row|, c requires 0 <= c < |row| => if row[c] then 1 else 0)
  }

  function ShapeRowCounts(s: Shape): seq<nat> {
    seq(|s|, r requires 0 <= r < |s| => Sum(BlockMask(s[r])))
  }

  /** The number of filled cells of a shape. */
  function CellCount(s: Shape): nat {
    Sum(ShapeRowCounts(s))
  }

  /** The sum of at most four counts, written out. */
  lemma {:induction false} SumOfFew(s: seq<nat>)
    requires |s| <= 4
    ensures Sum(s) == (if |s| > 0 then s[0] else 0) + (if |s| > 1 then s[1] else 0)
                      + (if |s| > 2 then s[2] else 0) + (if |s| > 3 then s[3] else 0)
  {
    if |s| > 0 {
      SumOfFew(s[1..]);
    }
  }

  /** Every tetromino of the catalogue has four cells. */
  lemma CatalogueCellCount(k: Kind)
    ensures CellCount(ShapeOf(k)) == 4
  {
    var m := ShapeOf(k);
    SumOfFew(BlockMask(m[0]));
    if |m| > 1 {
      SumOfFew(BlockMask(m[1]));
    }
    SumOfFew(ShapeRowCounts(m));
  }

  /** A shape row with no filled cell counts nothing. */
  lemma EmptyBlockRow(row: seq<bool>)
    requires forall c :: 0 <= c < |row| ==> !row[c]
    ensures Sum(BlockMask(row)) == 0
  {
    SumZeros(BlockMask(row));
  }

  /** Stamping one board row adds exactly the piece's cells in that row,
      because every filled cell of a fitting piece lands inside the walls
      on an empty cell. */
  lemma StampRow(b: Grid, p: Piece, y: int)
    requires 0 <= y < |b| && |b[y]| == Width
    requires Fits(b, p.shape, p.x, p.y)
    ensures RowFilled(Stamp(b, p)[y])
            == RowFilled(b[y]) + if 0 <= y - p.y < |p.shape| then Sum(BlockMask(p.shape[y - p.y])) else 0
  {
    var out := Stamp(b, p)[y];
    if 0 <= y - p.y < |p.shape| {
      var sr := p.shape[y - p.y];
      var shifted := Shift(Width, p.x, BlockMask(sr));
      forall x | 0 <= x < Width
        ensures CellMask(out)[x] == CellMask(b[y])[x] + shifted[x]
      {
        if Covers(p, x, y) {
          assert CellFree(b, p.x + (x - p.x), p.y + (y - p.y));
          assert out[x] == Filled(p.color);
        } else {
          assert out[x] == b[y][x];
        }
      }
      SumPointwise(CellMask(b[y]), shifted, CellMask(out));
      forall c | 0 <= c < |sr| && BlockMask(sr)[c] != 0
        ensures 0 <= p.x + c < Width
      {
        assert CellFree(b, p.x + c, p.y + (y - p.y));
      }
      SumShift(Width, p.x, BlockMask(sr));
    } else {
      assert out == b[y];
    }
  }

  /** Stamping a fitting piece whose top row is on the board adds exactly
      its cells to the board. */
  lemma StampCount(b: Grid, p: Piece)
    requires WellFormed(b) && Fits(b, p.shape, p.x, p.y) && p.y >= 0
    ensures FilledCount(Stamp(b, p)) == FilledCount(b) + CellCount(p.shape)
  {
    var out := Stamp(b, p);
    var shifted := Shift(|b|, p.y, ShapeRowCounts(p.shape));
    forall y | 0 <= y < |b|
      ensures RowCounts(out)[y] == RowCounts(b)[y] + shifted[y]
    {
      StampRow(b, p, y);
    }
    SumPointwise(RowCounts(b), shifted, RowCounts(out));
    forall r | 0 <= r < |p.shape| && ShapeRowCounts(p.shape)[r] != 0
      ensures 0 <= p.y + r < |b|
    {
      if forall c :: 0 <= c < |p.shape[r]| ==> !p.shape[r][c] {
        EmptyBlockRow(p.shape[r]);
      }
      var c :| 0 <= c < |p.shape[r]| && p.shape[r][c];
      assert CellFree(b, p.x + c, p.y + r);
    }
    SumShift(|b|, p.y, ShapeRowCounts(p.shape));
  }

  /** Every row has the board's width. */
  predicate RowsOfWidth(b: Grid) {
    forall r :: 0 <= r < |b| ==> |b[r]| == Width
  }

  lemma FilledCountConcat(a: Grid, c: Grid)
    ensures FilledCount(a + c) == FilledCount(a) + FilledCount(c)
  {
    assert RowCounts(a + c) == RowCounts(a) + RowCounts(c);
    SumConcat(RowCounts(a), RowCounts(c));
  }

  lemma FilledCountSingle(row: seq<Cell>)
    ensures FilledCount([row]) == RowFilled(row)
  {
    assert RowCounts([row]) == [RowFilled(row)];
    SumSingle(RowFilled(row));
  }

  lemma EmptyRowsCount(n: nat)
    ensures FilledCount(EmptyRows(n)) == 0
  {
    SumZeros(CellMask(EmptyRow()));
    SumZeros(RowCounts(EmptyRows(n)));
  }

  /** A full row of the board's width holds `Width` filled cells. */
  lemma FullRowCount(row: seq<Cell>)
    requires |row| == Width && Full(row)
    ensures RowFilled(row) == Width
  {
    SumOnes(CellMask(row));
  }

  /** The kept rows hold the board's cells less `Width` per full row. */
  lemma {:induction false} KeepFilled(b: Grid)
    requires RowsOfWidth(b)
    ensures FilledCount(Keep(b)) + Width * FullCount(b) == FilledCount(b)
  {
    if |b| == 0 {
      SumZeros(RowCounts(b));
      SumZeros(RowCounts(Keep(b)));
    } else {
      KeepFilled(b[1..]);
      assert b == [b[0]] + b[1..];
      FilledCountConcat([b[0]], b[1..]);
      FilledCountSingle(b[0]);
      if Full(b[0]) {
        FullRowCount(b[0]);
      } else {
        FilledCountConcat([b[0]], Keep(b[1..]));
      }
    }
  }

  /** Line clearing removes `Width` filled cells per full row and no
      other cell. */
  lemma ClearedFilledCount(b: Grid)
    requires RowsOfWidth(b)
    ensures FilledCount(Cleared(b)) == FilledCount(b) - Width * FullCount(b)
  {
    KeepFilled(b);
    FilledCountConcat(EmptyRows(|b| - |Keep(b)|), Keep(b));
    EmptyRowsCount(|b| - |Keep(b)|);
  }

  /** `m` has `w` columns in every row (possibly no rows). */
  predicate Rect(m: Shape, w: nat) {
    forall i :: 0 <= i < |m| ==> |m[i]| == w
  }

  /** Column j of `m` as 0/1 counts. */
  function ColumnMask(m: Shape, w: nat, j: nat): seq<nat>
    requires Rect(m, w) && j < w
  {
    seq(|m|, i requires 0 <= i < |m| => if m[i][j] then 1 else 0)
  }

  function ColumnCounts(m: Shape, w: nat): seq<nat>
    requires Rect(m, w)
  {
    seq(w, j requires 0 <= j < w => Sum(ColumnMask(m, w, j)))
  }

  /** Counting by columns gives the same total as counting by rows. */
  lemma {:induction false} ColumnsCountCells(m: Shape, w: nat)
    requires Rect(m, w)
    ensures Sum(ColumnCounts(m, w)) == CellCount(m)
  {
    if |m| == 0 {
      SumZeros(ColumnCounts(m, w));
      SumZeros(ShapeRowCounts(m));
    } else {
      var init := m[..|m| - 1];
      var last := m[|m| - 1];
      ColumnsCountCells(init, w);
      assert ShapeRowCounts(m) == ShapeRowCounts(init) + [Sum(BlockMask(last))];
      SumConcat(ShapeRowCounts(init), [Sum(BlockMask(last))]);
      SumSingle(Sum(BlockMask(last)));
      forall j | 0 <= j < w
        ensures ColumnCounts(m, w)[j] == ColumnCounts(init, w)[j] + BlockMask(last)[j]
      {
        assert ColumnMask(m, w, j) == ColumnMask(init, w, j) + [BlockMask(last)[j]];
        SumConcat(ColumnMask(init, w, j), [BlockMask(last)[j]]);
        SumSingle(BlockMask(last)[j]);
      }
      SumPointwise(ColumnCounts(init, w), BlockMask(last), ColumnCounts(m, w));
    }
  }

  /** A quarter turn keeps the number of filled cells: row j of the
      rotated shape is column j of the original, read bottom-up. */
  lemma RotateKeepsCellCount(m: Shape)
    requires IsMatrix(m)
    ensures CellCount(Rotate(m)) == CellCount(m)
  {
    var w := |m[0]|;
    var rot := Rotate(m);
    forall j | 0 <= j < w
      ensures ShapeRowCounts(rot)[j] == ColumnCounts(m, w)[j]
    {
      assert BlockMask(rot[j]) == Reverse(ColumnMask(m, w, j));
      SumReverse(ColumnMask(m, w, j));
    }
    assert ShapeRowCounts(rot) == ColumnCounts(m, w);
    ColumnsCountCells(m, w);
  }
}

=== FILE: engine.dfy ===
/** The game engine (`TetrisGame`, game/TetrisGame.js) as pure transition
    functions over an immutable game record.

    `Math.random()` becomes a `Kind` argument naming the piece that
    `createNewPiece` picks, `Date.now()` becomes the `now` argument, and
    the proof system's hash becomes the `H` argument of `MakeMove`. */
module Engine {
  import opened Wrappers
  import opened Shapes
  import opened Board
  import opened Lines
  import opened Cells
  import opened Snapshot
  import opened Ledger

  /** Minimum spacing, in milliseconds, between two player moves. */
  const MoveDelay: int := 100

  const MoveLeftTag: string := "move_left"
  const MoveRightTag: string := "move_right"
  const RotateTag: string := "rotate"
  const SoftDropTag: string := "soft_drop"
  const HardDropTag: string := "hard_drop"
  const AutoDropTag: string := "auto_drop"

  /** The fields of a `TetrisGame`. `currentPiece` is never null once the
      constructor has run, so the model's pieces are plain values. */
  datatype Game = Game(
    board: Grid,
    current: Piece,
    next: Piece,
    score: int,
    level: int,
    lines: int,
    gameOver: bool,
    dropTime: real,
    dropInterval: int,
    lastMoveTime: int)

  /** A game together with the move history of its proof system. */
  datatype Session = Session(game: Game, history: seq<Record>)

  /** `{success, proof}` as `makeMove` returns it; `None` is `proof: null`. */
  datatype MoveResult = MoveResult(success: bool, proof: Option<Record>)

  /** `Math.max(50, 1000 - (level - 1) * 50)`. */
  function GravityInterval(level: int): (ms: int)
    ensures ms >= 50
    ensures level >= 1 ==> ms <= 1000
    ensures level == 1 ==> ms == 1000
    ensures ms >= 1000 - (level - 1) * 50
    ensures ms == 50 || ms == 1000 - (level - 1) * 50
  {
    if 1000 - (level - 1) * 50 < 50 then 50 else 1000 - (level - 1) * 50
  }

  /** `[0, 100, 300, 500, 800][k] || 100`: a table entry that is missing
      or 0 falls back to 100. */
  function LineBonus(k: nat): (bonus: nat)
    ensures bonus > 0
    ensures k == 0 || k >= 5 ==> bonus == 100
    ensures 1 <= k <= 4 ==> bonus == [0, 100, 300, 500, 800][k]
  {
    var table := [0, 100, 300, 500, 800];
    if k < |table| && table[k] != 0 then table[k] else 100
  }

  /** What holds of every game the engine builds. Pieces spawn on row 0
      and only ever move sideways or down, so the current piece never
      rises above the top row and the next piece is still on row 0; every
      piece has the four cells of a tetromino. */
  predicate Inv(g: Game) {
    && WellFormed(g.board)
    && PieceOk(g.current) && PieceOk(g.next)
    && g.current.y >= 0 && g.next.y == 0
    && CellCount(g.current.shape) == 4 && CellCount(g.next.shape) == 4
    && (!g.gameOver ==> Fits(g.board, g.current.shape, g.current.x, g.current.y))
    && g.score >= 0
    && g.lines >= 0
    && g.level == g.lines / 10 + 1
    && g.dropInterval == GravityInterval(g.level)
  }

  /** The constructor (and `init`): empty board, two fresh pieces, counters
      at their start values. */
  function NewGame(first: Kind, second: Kind): (g: Game)
    ensures Inv(g) && !g.gameOver
    ensures g.board == EmptyBoard()
    ensures g.current == NewPiece(first) && g.next == NewPiece(second)
    ensures g.score == 0 && g.lines == 0 && g.level == 1
    ensures g.dropTime == 0.0 && g.dropInterval == 1000 && g.lastMoveTime == 0
  {
    NewPieceFitsEmpty(first);
    CatalogueCellCount(first);
    CatalogueCellCount(second);
    Game(EmptyBoard(), NewPiece(first), NewPiece(second), 0, 1, 0, false, 0.0, 1000, 0)
  }

  /** `restart`: a fresh game and an empty history, so the next proof is
      number 0 and has no predecessor. */
  function Restart(s: Session, first: Kind, second: Kind): (r: Session)
    ensures r.game == NewGame(first, second)
    ensures r.history == ClearHistory()
  {
    Session(NewGame(first, second), ClearHistory())
  }

  /** `getGameState`: a copy of the board, the current piece, the three
      counters and the game-over flag; the timers, the next piece and the
      last move time are not part of it. */
  function GetGameState(g: Game): (v: GameView)
    ensures v.board == g.board && v.currentPiece == g.current
    ensures v.score == g.score && v.level == g.level && v.lines == g.lines
    ensures v.gameOver == g.gameOver
  {
    GameView(g.board, g.current, g.score, g.level, g.lines, g.gameOver)
  }

  /** `movePiece(dx, dy)`: commit the translation only when the target
      position is valid; report whether it was. */
  function MovePiece(g: Game, dx: int, dy: int): (r: (Game, bool))
    ensures r.1 <==> Fits(g.board, g.current.shape, g.current.x + dx, g.current.y + dy)
    ensures r.1 ==> r.0 == g.(current := g.current.(x := g.current.x + dx, y := g.current.y + dy))
    ensures !r.1 ==> r.0 == g
  {
    var p := g.current;
    if Fits(g.board, p.shape, p.x + dx, p.y + dy) then
      (g.(current := p.(x := p.x + dx, y := p.y + dy)), true)
    else (g, false)
  }

  /** `rotatePiece`: commit the clockwise rotation only when it is valid at
      the current position (no wall kicks). */
  function RotatePiece(g: Game): (r: (Game, bool))
    requires IsMatrix(g.current.shape)
    ensures r.1 <==> Fits(g.board, Rotate(g.current.shape), g.current.x, g.current.y)
    ensures r.1 ==> r.0 == g.(current := g.current.(shape := Rotate(g.current.shape)))
    ensures !r.1 ==> r.0 == g
  {
    var rotated := Rotate(g.current.shape);
    if Fits(g.board, rotated, g.current.x, g.current.y) then
      (g.(current := g.current.(shape := rotated)), true)
    else (g, false)
  }

  /** The counter updates of `clearLines` after `k` rows went: nothing when
      k is 0; otherwise lines grow by k, the score by the line bonus times
      the level BEFORE the update, and then the level and the gravity
      interval are recomputed from the new line count. */
  function ScoreLines(g: Game, k: nat): (r: Game)
    ensures r.board == g.board && r.current == g.current && r.next == g.next
    ensures r.gameOver == g.gameOver && r.dropTime == g.dropTime
    ensures r.lastMoveTime == g.lastMoveTime
    ensures k == 0 ==> r == g
    ensures k > 0 ==> && r.lines == g.lines + k
                      && r.score == g.score + LineBonus(k) * g.level
                      && r.level == r.lines / 10 + 1
                      && r.dropInterval == GravityInterval(r.level)
  {
    if k > 0 then
      var lines := g.lines + k;
      var level := lines / 10 + 1;
      g.(lines := lines, score := g.score + LineBonus(k) * g.level,
         level := level, dropInterval := GravityInterval(level))
    else g
  }

  /** `clearLines`: remove the full rows and update the counters. */
  function ClearFullRows(g: Game): (r: Game)
    ensures r.board == Cleared(g.board)
    ensures r.lines == g.lines + FullCount(g.board)
    ensures r == ScoreLines(g.(board := Cleared(g.board)), FullCount(g.board))
  {
    KeepCount(g.board);
    ScoreLines(g.(board := Cleared(g.board)), ClearedCount(g.board))
  }

  /** `placePiece`: stamp the current piece into the board, clear lines,
      promote the next piece, draw a new next piece (`spawn`), and end the
      game when the promoted piece does not fit where it spawned. */
  function PlacePiece(g: Game, spawn: Kind): (r: Game)
    ensures r.current == g.next && r.next == NewPiece(spawn)
    ensures r.board == Cleared(Stamp(g.board, g.current))
    ensures r.gameOver <==> g.gameOver || !Fits(r.board, r.current.shape, r.current.x, r.current.y)
    ensures r.dropTime == g.dropTime && r.lastMoveTime == g.lastMoveTime
    ensures var c := ClearFullRows(g.(board := Stamp(g.board, g.current)));
            && r.score == c.score && r.lines == c.lines && r.level == c.level
            && r.dropInterval == c.dropInterval
    ensures r.lines == g.lines + FullCount(Stamp(g.board, g.current))
  {
    var g1 := ClearFullRows(g.(board := Stamp(g.board, g.current)));
    var g2 := g1.(current := g1.next, next := NewPiece(spawn));
    if !Fits(g2.board, g2.current.shape, g2.current.x, g2.current.y) then
      g2.(gameOver := true)
    else g2
  }

  /** The hard-drop loop `while (movePiece(0, 1))`: the piece moved down
      until the next row down is invalid. */
  function Fall(b: Grid, p: Piece): (q: Piece)
    requires HasBlock(p.shape)
    ensures q == p.(y := q.y) && q.y >= p.y
    ensures !Fits(b, q.shape, q.x, q.y + 1)
    ensures forall d :: p.y < d <= q.y ==> Fits(b, p.shape, p.x, d)
    decreases Height - p.y
  {
    if Fits(b, p.shape, p.x, p.y + 1) then
      FitsAboveFloor(b, p.shape, p.x, p.y + 1);
      Fall(b, p.(y := p.y + 1))
    else p
  }

  /** The game after the hard-drop loop, before locking: the piece has
      fallen as far as it goes and the score has grown by one per row. */
  function Dropped(g: Game): (d: Game)
    requires HasBlock(g.current.shape)
    ensures d == g.(current := d.current, score := d.score)
    ensures d.current == g.current.(y := d.current.y) && d.current.y >= g.current.y
    ensures d.score == g.score + (d.current.y - g.current.y)
    ensures !Fits(g.board, d.current.shape, d.current.x, d.current.y + 1)
    ensures forall y :: g.current.y < y <= d.current.y ==> Fits(g.board, g.current.shape, g.current.x, y)
  {
    var q := Fall(g.board, g.current);
    g.(current := q, score := g.score + (q.y - g.current.y))
  }

  /** `hardDrop`: drop the piece as far as it goes, one point per row, then
      lock it. The lock guard `dropped || !isValid(y + 1)` always holds,
      because the loop stops only when the next row down is invalid. */
  function HardDrop(g: Game, spawn: Kind): (r: (Game, bool))
    requires HasBlock(g.current.shape)
    ensures r.1
    ensures r.0 == PlacePiece(Dropped(g), spawn)
  {
    var g1 := Dropped(g);
    var q := g1.current;
    var dropped := q.y > g.current.y;
    if dropped || !Fits(g.board, q.shape, q.x, q.y + 1) then (PlacePiece(g1, spawn), true)
    else (g1, false)
  }

  /** `update(deltaTime)`: accumulate time; once the gravity interval is
      reached, reset the accumulator and move down one row, or lock the
      piece when that is impossible. */
  function Update(g: Game, dt: real, spawn: Kind): (r: (Game, bool))
    ensures g.gameOver ==> r == (g, false)
    ensures !g.gameOver && g.dropTime + dt < g.dropInterval as real ==> r == (g.(dropTime := g.dropTime + dt), false)
    ensures !g.gameOver && g.dropTime + dt >= g.dropInterval as real ==>
              && r.1
              && var g1 := g.(dropTime := 0.0);
                 var p := g.current;
                 r.0 == if Fits(g.board, p.shape, p.x, p.y + 1) then g1.(current := p.(y := p.y + 1))
                        else PlacePiece(g1, spawn)
  {
    if g.gameOver then (g, false)
    else
      var t := g.dropTime + dt;
      if t >= g.dropInterval as real then
        var g1 := g.(dropTime := 0.0);
        var moved := MovePiece(g1, 0, 1);
        if moved.1 then (moved.0, true)
        else
          assert moved.0 == g1;
          (PlacePiece(moved.0, spawn), true)
      else (g.(dropTime := t), false)
  }

  /** The move types that count as player input (rate-limited, stamp
      `lastMoveTime`). */
  predicate IsPlayerMove(moveType: string) {
    moveType in [MoveLeftTag, MoveRightTag, RotateTag, SoftDropTag, HardDropTag]
  }

  /** The `switch` of `makeMove`: run the move; player moves record `now`
      as the last move time whether or not they succeed. An unknown move
      type does nothing. */
  function Dispatch(g: Game, moveType: string, dt: real, now: int, spawn: Kind): (r: (Game, bool))
    requires PieceOk(g.current)
    ensures IsPlayerMove(moveType) ==> r.0.lastMoveTime == now
    ensures !IsPlayerMove(moveType) ==> r.0.lastMoveTime == g.lastMoveTime
    ensures moveType in [MoveLeftTag, MoveRightTag, SoftDropTag] ==>
              var (dx, dy) := if moveType == MoveLeftTag then (-1, 0)
                              else if moveType == MoveRightTag then (1, 0) else (0, 1);
              var c := g.current;
              && (r.1 <==> Fits(g.board, c.shape, c.x + dx, c.y + dy))
              && r.0 == (if r.1 then g.(current := c.(x := c.x + dx, y := c.y + dy)) else g)
                        .(lastMoveTime := now)
    ensures moveType == RotateTag ==>
              var c := g.current;
              && (r.1 <==> Fits(g.board, Rotate(c.shape), c.x, c.y))
              && r.0 == (if r.1 then g.(current := c.(shape := Rotate(c.shape))) else g)
                        .(lastMoveTime := now)
    ensures moveType == HardDropTag ==> r == (PlacePiece(Dropped(g), spawn).(lastMoveTime := now), true)
    ensures moveType == AutoDropTag ==> r == Update(g, dt, spawn)
    ensures !IsPlayerMove(moveType) && moveType != AutoDropTag ==> r == (g, false)
  {
    if moveType == MoveLeftTag then
      var m := MovePiece(g, -1, 0); (m.0.(lastMoveTime := now), m.1)
    else if moveType == MoveRightTag then
      var m := MovePiece(g, 1, 0); (m.0.(lastMoveTime := now), m.1)
    else if moveType == RotateTag then
      var m := RotatePiece(g); (m.0.(lastMoveTime := now), m.1)
    else if moveType == SoftDropTag then
      var m := MovePiece(g, 0, 1); (m.0.(lastMoveTime := now), m.1)
    else if moveType == HardDropTag then
      var m := HardDrop(g, spawn); (m.0.(lastMoveTime := now), m.1)
    else if moveType == AutoDropTag then
      Update(g, dt, spawn)
    else (g, false)
  }

  /** `makeMove`: refuse when the game is over or a player move comes too
      soon; otherwise run the move and, when it succeeded or is an
      automatic drop, record a proof of the before and after states. */
  function MakeMove(H: Hasher, s: Session, moveType: string, dt: real, now: int, spawn: Kind)
    : (r: (Session, MoveResult))
    requires PieceOk(s.game.current)
    ensures s.game.gameOver ==> r == (s, MoveResult(false, None))
    ensures moveType != AutoDropTag && now - s.game.lastMoveTime < MoveDelay
            ==> r == (s, MoveResult(false, None))
    ensures Admitted(s.game, moveType, now) && IsPlayerMove(moveType)
            ==> r.0.game.lastMoveTime == now
    ensures r.1.proof.Some? <==> Admitted(s.game, moveType, now) && (r.1.success || moveType == AutoDropTag)
    ensures r.1.proof.Some? ==> r.0.history == s.history + [r.1.proof.value]
    ensures r.1.proof.None? ==> r.0.history == s.history && !r.1.success
    ensures moveType == AutoDropTag ==> r.0.game.lastMoveTime == s.game.lastMoveTime
    ensures Admitted(s.game, moveType, now) ==>
              var d := Dispatch(s.game, moveType, dt, now, spawn);
              && r.0.game == d.0 && r.1.success == d.1
              && (r.1.proof.Some? ==>
                    (r.0.history, r.1.proof.value)
                    == CreateMoveProof(H, s.history, moveType, GetGameState(s.game), GetGameState(d.0), now))
  {
    var g := s.game;
    if g.gameOver then (s, MoveResult(false, None))
    else if moveType != AutoDropTag && now - g.lastMoveTime < MoveDelay then (s, MoveResult(false, None))
    else
      var before := GetGameState(g);
      var (g1, ok) := Dispatch(g, moveType, dt, now, spawn);
      if ok || moveType == AutoDropTag then
        var (history, proof) := CreateMoveProof(H, s.history, moveType, before, GetGameState(g1), now);
        (Session(g1, history), MoveResult(ok, Some(proof)))
      else (Session(g1, s.history), MoveResult(false, None))
  }

  /** The gates of `makeMove` let the move through. */
  predicate Admitted(g: Game, moveType: string, now: int) {
    !g.gameOver && (moveType == AutoDropTag || now - g.lastMoveTime >= MoveDelay)
  }
}

=== FILE: invariants.dfy ===
/** What every transition of the game engine preserves, and what it never
    decreases (game/TetrisGame.js). */
module Invariants {
  import opened Shapes
  import opened Board
  import opened Lines
  import opened Cells
  import opened Ledger
  import opened Engine

  /** Score, lines and level never go down. */
  predicate Progressed(g: Game, g': Game) {
    g'.score >= g.score && g'.lines >= g.lines && g'.level >= g.level
  }

  /** Gravity always lies between 50 ms and 1000 ms. */
  lemma IntervalBounds(g: Game)
    requires Inv(g)
    ensures 50 <= g.dropInterval <= 1000
  {
  }

  /** The counter part of the invariant: non-negative score and lines,
      level and gravity derived from the line count. */
  predicate CountersOk(g: Game) {
    && g.score >= 0
    && g.lines >= 0
    && g.level == g.lines / 10 + 1
    && g.dropInterval == GravityInterval(g.level)
  }

  /** Line clearing keeps the counters consistent and never lowers them. */
  lemma ClearFullRowsKeepsCounters(g: Game)
    requires CountersOk(g)
    ensures CountersOk(ClearFullRows(g)) && Progressed(g, ClearFullRows(g))
  {
    var k := FullCount(g.board);
    assert ClearFullRows(g) == ScoreLines(g.(board := Cleared(g.board)), k);
    if k > 0 {
      assert LineBonus(k) * g.level >= 0;
    }
  }

  /** Locking keeps the board 20 x 10, promotes a well-formed piece, keeps
      level and gravity tied to the line count, and ends the game exactly
      when the promoted piece does not fit, so a live game's piece fits. */
  lemma PlacePieceKeepsInv(g: Game, spawn: Kind)
    requires Inv(g)
    ensures Inv(PlacePiece(g, spawn)) && Progressed(g, PlacePiece(g, spawn))
  {
    var stamped := Stamp(g.board, g.current);
    assert WellFormed(stamped);
    ClearedWellFormed(stamped);
    var g1 := g.(board := stamped);
    assert CountersOk(g1);
    ClearFullRowsKeepsCounters(g1);
    var c := ClearFullRows(g1);
    var r := PlacePiece(g, spawn);
    CatalogueCellCount(spawn);
    assert r.score == c.score && r.lines == c.lines && r.level == c.level;
    assert r.dropInterval == c.dropInterval;
    assert PieceOk(r.current) && PieceOk(r.next);
  }

  /** Cell conservation: locking a piece of a live game adds the piece's
      cells to the board and line clearing takes away `Width` cells per
      cleared line, so the board gains four cells less ten per line. */
  lemma PlacePieceConservesCells(g: Game, spawn: Kind)
    requires Inv(g) && !g.gameOver
    ensures var r := PlacePiece(g, spawn);
            var k := FullCount(Stamp(g.board, g.current));
            && FilledCount(r.board) == FilledCount(g.board) + CellCount(g.current.shape) - Width * k
            && FilledCount(r.board) == FilledCount(g.board) + 4 - Width * (r.lines - g.lines)
  {
    var stamped := Stamp(g.board, g.current);
    StampCount(g.board, g.current);
    ClearedFilledCount(stamped);
  }

  /** Translation keeps the invariant: only valid targets are committed.
      The engine moves pieces sideways or down only (dy is 0 or 1). */
  lemma MovePieceKeepsInv(g: Game, dx: int, dy: int)
    requires Inv(g) && dy >= 0
    ensures Inv(MovePiece(g, dx, dy).0) && Progressed(g, MovePiece(g, dx, dy).0)
  {
  }

  /** Rotation keeps the invariant: only valid rotations are committed,
      and a rotated shape is still a rectangle with a filled cell. */
  lemma RotatePieceKeepsInv(g: Game)
    requires Inv(g)
    ensures Inv(RotatePiece(g).0) && Progressed(g, RotatePiece(g).0)
  {
    RotateKeepsBlock(g.current.shape);
    RotateKeepsCellCount(g.current.shape);
  }

  /** The piece the hard-drop loop stops at still fits, when the piece it
      started from did. */
  lemma FallFits(b: Grid, p: Piece)
    requires HasBlock(p.shape) && Fits(b, p.shape, p.x, p.y)
    ensures var q := Fall(b, p); Fits(b, q.shape, q.x, q.y)
  {
    var q := Fall(b, p);
    if q.y > p.y {
      assert p.y < q.y <= q.y;
    }
  }

  /** Hard drop keeps the invariant: the fallen piece is locked after the
      score has grown by the distance fallen. */
  lemma HardDropKeepsInv(g: Game, spawn: Kind)
    requires Inv(g)
    ensures Inv(HardDrop(g, spawn).0) && Progressed(g, HardDrop(g, spawn).0)
  {
    var locked := Dropped(g);
    if !g.gameOver {
      FallFits(g.board, g.current);
    }
    assert Inv(locked);
    PlacePieceKeepsInv(locked, spawn);
  }

  /** The invariant does not look at the gravity timer. */
  lemma TimerKeepsInv(g: Game, t: real)
    requires Inv(g)
    ensures Inv(g.(dropTime := t)) && Progressed(g, g.(dropTime := t))
  {
  }

  /** Gravity keeps the invariant: it moves down only to a valid row and
      otherwise locks. */
  lemma UpdateKeepsInv(g: Game, dt: real, spawn: Kind)
    requires Inv(g)
    ensures Inv(Update(g, dt, spawn).0) && Progressed(g, Update(g, dt, spawn).0)
  {
    var r := Update(g, dt, spawn).0;
    if g.gameOver {
      assert r == g;
    } else if g.dropTime + dt < g.dropInterval as real {
      TimerKeepsInv(g, g.dropTime + dt);
    } else {
      var g1 := g.(dropTime := 0.0);
      var p := g.current;
      TimerKeepsInv(g, 0.0);
      if Fits(g.board, p.shape, p.x, p.y + 1) {
        MovePieceKeepsInv(g1, 0, 1);
        assert r == MovePiece(g1, 0, 1).0;
      } else {
        PlacePieceKeepsInv(g1, spawn);
        assert r == PlacePiece(g1, spawn);
      }
    }
  }

  lemma DispatchKeepsInv(g: Game, moveType: string, dt: real, now: int, spawn: Kind)
    requires Inv(g)
    ensures Inv(Dispatch(g, moveType, dt, now, spawn).0)
    ensures Progressed(g, Dispatch(g, moveType, dt, now, spawn).0)
  {
    if moveType == MoveLeftTag {
      MovePieceKeepsInv(g, -1, 0);
    } else if moveType == MoveRightTag {
      MovePieceKeepsInv(g, 1, 0);
    } else if moveType == RotateTag {
      RotatePieceKeepsInv(g);
    } else if moveType == SoftDropTag {
      MovePieceKeepsInv(g, 0, 1);
    } else if moveType == HardDropTag {
      HardDropKeepsInv(g, spawn);
    } else if moveType == AutoDropTag {
      UpdateKeepsInv(g, dt, spawn);
    }
  }

  /** Every `makeMove` keeps the game invariant (in particular, while the
      game is live the current piece sits at a valid position, and gravity
      stays in [50, 1000]), never lowers score, lines or level, and keeps
      an honestly built move history honest. */
  lemma MakeMoveKeepsInv(H: Hasher, s: Session, moveType: string, dt: real, now: int, spawn: Kind)
    requires Inv(s.game)
    ensures var r := MakeMove(H, s, moveType, dt, now, spawn).0;
            && Inv(r.game)
            && Progressed(s.game, r.game)
            && (Honest(H, s.history) ==> Honest(H, r.history))
  {
    var g := s.game;
    if Admitted(g, moveType, now) {
      DispatchKeepsInv(g, moveType, dt, now, spawn);
      var (g1, ok) := Dispatch(g, moveType, dt, now, spawn);
      if ok || moveType == AutoDropTag {
        if Honest(H, s.history) {
          CreateKeepsHonest(H, s.history, moveType, GetGameState(g), GetGameState(g1), now);
        }
      }
    }
  }

  /** A restarted session satisfies the invariant and its history is
      honest (empty). */
  lemma RestartEstablishesInv(H: Hasher, s: Session, first: Kind, second: Kind)
    ensures Inv(Restart(s, first, second).game)
    ensures Honest(H, Restart(s, first, second).history)
  {
  }

  /** The tenth line, cleared alone at level 1, scores 100 and brings
      level 2, where gravity is 950 ms. */
  lemma TenLinesReachLevelTwo(g: Game)
    requires Inv(g) && g.lines == 9
    ensures ScoreLines(g, 1).level == 2 && ScoreLines(g, 1).dropInterval == 950
    ensures ScoreLines(g, 1).score == g.score + 100
  {
  }
}

=== FILE: json.dfy ===
/** JSON values as the game and the ledger exchange them.

    A JavaScript object is an ORDERED list of (key, value) fields: the
    serialiser emits ordinary keys in insertion order, so two objects with
    the same fields in a different order serialise, and hash, differently.
    Keys that look like array indices are emitted first; `Canonical` rules
    them out. */
module Json {
  import opened Wrappers

  /** Object keys. The keys the game and the ledger write are named;
      `Other` stands for any key outside that vocabulary (one a tampered
      record might carry). */
  datatype Key =
    | MoveType | Timestamp | GameStateBefore | GameStateAfter | MoveIndex
    | PreviousMoveHash | Hash | Valid
    | Board | CurrentPiece | Score | Level | Lines
    | Shape | Color | X | Y
    | Other(name: string)

  datatype Json =
    | JNull
    | JBool(b: bool)
    | JNum(n: int)
    | JStr(s: string)
    | JArr(items: seq<Json>)
    | JObj(fields: seq<(Key, Json)>)

  type Field = (Key, Json)
  type Fields = seq<Field>

  /** The property name a key stands for, as the serialiser writes it. */
  function Spelling(k: Key): string {
    match k
    case MoveType => "moveType"
    case Timestamp => "timestamp"
    case GameStateBefore => "gameStateBefore"
    case GameStateAfter => "gameStateAfter"
    case MoveIndex => "moveIndex"
    case PreviousMoveHash => "previousMoveHash"
    case Hash => "hash"
    case Valid => "valid"
    case Board => "board"
    case CurrentPiece => "currentPiece"
    case Score => "score"
    case Level => "level"
    case Lines => "lines"
    case Shape => "shape"
    case Color => "color"
    case X => "x"
    case Y => "y"
    case Other(name) => name
  }

  /** The spellings of the named keys. */
  function NamedSpellings(): set<string> {
    {"moveType", "timestamp", "gameStateBefore", "gameStateAfter", "moveIndex",
     "previousMoveHash", "hash", "valid", "board", "currentPiece", "score",
     "level", "lines", "shape", "color", "x", "y"}
  }

  /** A name JavaScript treats as an array index: the decimal spelling of
      a non-negative integer, without leading zeros. `JSON.stringify` emits
      such keys first, in numeric order, whatever the insertion order.
      Integers from 2^32 - 1 up are not indices, but they are refused
      here too. */
  predicate IndexLike(s: string) {
    && |s| > 0
    && (forall c :: 0 <= c < |s| ==> '0' <= s[c] <= '9')
    && (s[0] == '0' ==> |s| == 1)
  }

  /** A key in its one representation, emitted in insertion order: an
      `Other` key neither re-spells a named key nor looks like an array
      index. */
  predicate KeyOk(k: Key) {
    k.Other? ==> k.name !in NamedSpellings() && !IndexLike(k.name)
  }

  /** No key occurs twice. A JavaScript object holds each property once,
      so only such a list stands for an object. */
  predicate DistinctKeys(fs: Fields) {
    forall i, j :: 0 <= i < j < |fs| ==> fs[i].0 != fs[j].0
  }

  /** Keys in their one representation are equal exactly when they are
      spelled alike. */
  lemma SpellingInjective(a: Key, b: Key)
    requires KeyOk(a) && KeyOk(b)
    ensures Spelling(a) == Spelling(b) <==> a == b
  {
  }

  /** A JSON value that `JSON.stringify` writes field by field in the
      order given: every object holds each key once, spelled one way, and
      no key looks like an array index. Distinct canonical values have
      distinct texts. */
  predicate Canonical(j: Json) {
    match j
    case JArr(items) => forall x :: x in items ==> Canonical(x)
    case JObj(fields) => DistinctKeys(fields) && forall f :: f in fields ==> KeyOk(f.0) && Canonical(f.1)
    case _ => true
  }

  /** The field lists that print alike are not canonical: `{a: 1, 0: 2}`
      prints its index key first, as `{0: 2, a: 1}` does, and a list that
      names a key twice is no object. */
  lemma ReorderedOrRepeatedKeysNotCanonical()
    ensures !CanonicalFields([(Other("a"), JNum(1)), (Other("0"), JNum(2))])
    ensures !CanonicalFields([(Other("0"), JNum(2)), (Other("a"), JNum(1))])
    ensures !CanonicalFields([(Other("a"), JNum(1)), (Other("a"), JNum(2))])
  {
    var index := (Other("0"), JNum(2));
    var ab := [(Other("a"), JNum(1)), index];
    var ba := [index, (Other("a"), JNum(1))];
    var twice := [(Other("a"), JNum(1)), (Other("a"), JNum(2))];
    assert IndexLike("0");
    assert !KeyOk(index.0);
    assert ab[1] == index && index in ab;
    assert ba[0] == index && index in ba;
    assert twice[0].0 == twice[1].0;
    assert !DistinctKeys(twice);
  }

  /** The field list of a canonical object. */
  predicate CanonicalFields(fs: Fields) {
    DistinctKeys(fs) && forall f :: f in fs ==> KeyOk(f.0) && Canonical(f.1)
  }

  /** Canonicity of a field list, established field by field. */
  lemma IndexedCanonical(fs: Fields)
    requires DistinctKeys(fs)
    requires forall i :: 0 <= i < |fs| ==> KeyOk(fs[i].0) && Canonical(fs[i].1)
    ensures CanonicalFields(fs) && Canonical(JObj(fs))
  {
    forall f | f in fs
      ensures KeyOk(f.0) && Canonical(f.1)
    {
      var i :| 0 <= i < |fs| && fs[i] == f;
    }
  }

  predicate HasKey(fs: Fields, k: Key) {
    exists i :: 0 <= i < |fs| && fs[i].0 == k
  }

  /** Property access `obj[k]`: the value of the first field named `k`,
      or None for `undefined`. */
  function Get(fs: Fields, k: Key): (r: Option<Json>)
    ensures r.None? <==> !HasKey(fs, k)
    ensures r.Some? ==> (k, r.value) in fs
  {
    if |fs| == 0 then None
    else if fs[0].0 == k then Some(fs[0].1)
    else
      var r := Get(fs[1..], k);
      assert HasKey(fs, k) ==> HasKey(fs[1..], k) by {
        if HasKey(fs, k) {
          var i :| 0 <= i < |fs| && fs[i].0 == k;
          assert fs[1..][i - 1].0 == k;
        }
      }
      r
  }

  /** Joining canonical field lists with no key in common. */
  lemma CanonicalAppend(a: Fields, b: Fields)
    requires CanonicalFields(a) && CanonicalFields(b)
    requires forall k :: HasKey(a, k) ==> !HasKey(b, k)
    ensures CanonicalFields(a + b)
  {
    var ab := a + b;
    forall i, j | 0 <= i < j < |ab|
      ensures ab[i].0 != ab[j].0
    {
      if j < |a| {
        assert ab[i] == a[i] && ab[j] == a[j];
      } else if |a| <= i {
        assert ab[i] == b[i - |a|] && ab[j] == b[j - |a|];
      } else {
        assert ab[i] == a[i] && ab[j] == b[j - |a|];
        assert HasKey(a, a[i].0) && HasKey(b, b[j - |a|].0);
      }
    }
    forall g | g in a + b
      ensures KeyOk(g.0) && Canonical(g.1)
    {
      assert g in a || g in b;
    }
  }

  lemma CanonicalPrefix(fs: Fields, n: nat)
    requires CanonicalFields(fs) && n <= |fs|
    ensures CanonicalFields(fs[..n])
  {
    assert forall i :: 0 <= i < n ==> fs[..n][i] == fs[i];
    forall g | g in fs[..n]
      ensures KeyOk(g.0) && Canonical(g.1)
    {
      var i :| 0 <= i < n && fs[..n][i] == g;
      assert fs[i] in fs;
    }
  }

  /** The object without the fields named `k`, others kept in order
      (the rest pattern of `const { k, ...rest } = obj`). */
  function Remove(fs: Fields, k: Key): (r: Fields)
    ensures !HasKey(r, k)
    ensures forall f :: f in r ==> f in fs
    ensures forall k' :: k' != k ==> (HasKey(r, k') <==> HasKey(fs, k'))
    ensures !HasKey(fs, k) ==> r == fs
  {
    if |fs| == 0 then []
    else if fs[0].0 == k then Remove(fs[1..], k)
    else
      var rest := Remove(fs[1..], k);
      assert forall k' :: HasKey(fs, k') <==> fs[0].0 == k' || HasKey(fs[1..], k') by {
        forall k' | HasKey(fs, k') && fs[0].0 != k' ensures HasKey(fs[1..], k') {
          var i :| 0 <= i < |fs| && fs[i].0 == k';
          assert fs[1..][i - 1].0 == k';
        }
        forall k' | HasKey(fs[1..], k') ensures HasKey(fs, k') {
          var i :| 0 <= i < |fs[1..]| && fs[1..][i].0 == k';
          assert fs[i + 1].0 == k';
        }
      }
      assert forall k' :: HasKey([fs[0]] + rest, k') <==> fs[0].0 == k' || HasKey(rest, k') by {
        var r := [fs[0]] + rest;
        assert r[0] == fs[0];
        forall k' | HasKey(r, k') && fs[0].0 != k' ensures HasKey(rest, k') {
          var i :| 0 <= i < |r| && r[i].0 == k';
          assert rest[i - 1].0 == k';
        }
        forall k' | HasKey(rest, k') ensures HasKey(r, k') {
          var i :| 0 <= i < |rest| && rest[i].0 == k';
          assert r[i + 1].0 == k';
        }
      }
      [fs[0]] + rest
  }

  /** Removing a key keeps the other keys distinct. */
  lemma {:induction false} RemoveDistinct(fs: Fields, k: Key)
    requires DistinctKeys(fs)
    ensures DistinctKeys(Remove(fs, k))
  {
    if |fs| > 0 {
      var tail := fs[1..];
      assert DistinctKeys(tail) by {
        forall i, j | 0 <= i < j < |tail|
          ensures tail[i].0 != tail[j].0
        {
          assert tail[i] == fs[i + 1] && tail[j] == fs[j + 1];
        }
      }
      RemoveDistinct(tail, k);
      if fs[0].0 != k {
        var rest := Remove(tail, k);
        var r := [fs[0]] + rest;
        forall i, j | 0 <= i < j < |r|
          ensures r[i].0 != r[j].0
        {
          assert r[j] == rest[j - 1];
          if i == 0 {
            assert rest[j - 1] in tail;
            var m :| 0 <= m < |tail| && tail[m] == rest[j - 1];
            assert fs[m + 1] == tail[m];
          } else {
            assert r[i] == rest[i - 1];
          }
        }
      }
    }
  }

  lemma CanonicalRemove(fs: Fields, k: Key)
    requires CanonicalFields(fs)
    ensures CanonicalFields(Remove(fs, k))
  {
    RemoveDistinct(fs, k);
    var r := Remove(fs, k);
    forall g | g in r
      ensures KeyOk(g.0) && Canonical(g.1)
    {
      assert g in fs;
    }
  }

  lemma {:induction false} RemoveAppend(a: Fields, b: Fields, k: Key)
    ensures Remove(a + b, k) == Remove(a, k) + Remove(b, k)
  {
    if |a| == 0 {
      assert a + b == b;
    } else {
      assert (a + b)[1..] == a[1..] + b;
      RemoveAppend(a[1..], b, k);
    }
  }

  /** Reading a field list built by prepending one field. */
  lemma GetCons(f: Field, rest: Fields, k: Key)
    ensures Get([f] + rest, k) == if f.0 == k then Some(f.1) else Get(rest, k)
  {
    assert ([f] + rest)[1..] == rest;
  }

  lemma {:induction false} GetAppend(a: Fields, b: Fields, k: Key)
    ensures Get(a + b, k) == if HasKey(a, k) then Get(a, k) else Get(b, k)
  {
    if |a| > 0 {
      assert (a + b)[1..] == a[1..] + b;
      GetAppend(a[1..], b, k);
      if a[0].0 != k && HasKey(a, k) {
        var i :| 0 <= i < |a| && a[i].0 == k;
        assert a[1..][i - 1].0 == k;
      }
    } else {
      assert a + b == b;
    }
  }

  /** Lists with the same keys position by position have the same keys. */
  lemma SameKeys(a: Fields, b: Fields)
    requires |a| == |b| && forall i :: 0 <= i < |a| ==> a[i].0 == b[i].0
    ensures forall k :: HasKey(a, k) <==> HasKey(b, k)
  {
    forall k | HasKey(a, k) ensures HasKey(b, k) {
      var i :| 0 <= i < |a| && a[i].0 == k;
      assert b[i].0 == k;
    }
    forall k | HasKey(b, k) ensures HasKey(a, k) {
      var i :| 0 <= i < |b| && b[i].0 == k;
      assert a[i].0 == k;
    }
  }
}

=== FILE: ledger.dfy ===
/** The hash-chained move ledger (game/ProofSystem.js).

    SHA-256 over the JSON text of an object is abstracted as a function
    `H` from an ordered field list to a digest string, passed in by the
    caller. Lemmas that need collision freedom assume `Injective(H)`:
    distinct canonical field lists have distinct hashes. A canonical list
    has each key once and no key that looks like an array index, so it
    serialises field by field in list order. */
module Ledger {
  import opened Wrappers
  import opened Json
  import opened Snapshot

  /** A stored move proof: a JavaScript object, i.e. an ordered field list. */
  type Record = Fields

  type Hasher = Fields -> string

  ghost predicate Injective(H: Hasher) {
    forall a, b :: CanonicalFields(a) && CanonicalFields(b) && H(a) == H(b) ==> a == b
  }

  /** `previousMoveHash` as `createMoveProof` sets it: the last record's
      `hash` when the history is non-empty (an absent `hash` is `undefined`,
      which the serialiser omits). */
  function PreviousLink(history: seq<Record>): Fields {
    if |history| == 0 then []
    else match Get(history[|history| - 1], Hash)
      case None => []
      case Some(h) => [(PreviousMoveHash, h)]
  }

  /** The `moveData` object that gets hashed. */
  function MoveData(history: seq<Record>, moveType: string, before: GameView, after: GameView,
                    timestamp: int): Fields
  {
    [(MoveType, JStr(moveType))]
    + ([(Timestamp, JNum(timestamp))]
    + ([(GameStateBefore, SerializeGameState(before))]
    + ([(GameStateAfter, SerializeGameState(after))]
    + ([(MoveIndex, JNum(|history|))]
    + PreviousLink(history)))))
  }

  /** The two fields `createMoveProof` adds after hashing. */
  function Seal(digest: string): Fields {
    [(Hash, JStr(digest)), (Valid, JBool(true))]
  }

  /** A record as `createMoveProof` stores it: some move data, then the
      hash of exactly that data, then `valid: true`. */
  predicate Created(H: Hasher, p: Record) {
    && |p| >= 2
    && !HasKey(p[..|p| - 2], Hash)
    && !HasKey(p[..|p| - 2], Valid)
    && p[|p| - 2..] == Seal(H(p[..|p| - 2]))
  }

  /** Reading a move-data field of a created record reads the move data. */
  lemma GetCreated(H: Hasher, p: Record, k: Key)
    requires Created(H, p) && k != Hash && k != Valid
    ensures Get(p, k) == Get(p[..|p| - 2], k)
  {
    var md := p[..|p| - 2];
    assert p == md + Seal(H(md));
    GetAppend(md, Seal(H(md)), k);
    GetCons(Seal(H(md))[0], Seal(H(md))[1..], k);
    GetCons(Seal(H(md))[1], [], k);
  }

  /** Reading the link field list. */
  lemma LinkGet(history: seq<Record>, k: Key)
    ensures Get(PreviousLink(history), k)
            == if k == PreviousMoveHash && |history| > 0 then Get(history[|history| - 1], Hash) else None
  {
    var link := PreviousLink(history);
    if |link| > 0 {
      GetCons(link[0], [], k);
      assert link == [link[0]] + [];
    }
  }

  /** Reading one key of the move data. */
  lemma MoveDataGet(history: seq<Record>, moveType: string, before: GameView,
                    after: GameView, timestamp: int, k: Key)
    ensures Get(MoveData(history, moveType, before, after, timestamp), k)
            == if k == MoveType then Some(JStr(moveType))
               else if k == Timestamp then Some(JNum(timestamp))
               else if k == GameStateBefore then Some(SerializeGameState(before))
               else if k == GameStateAfter then Some(SerializeGameState(after))
               else if k == MoveIndex then Some(JNum(|history|))
               else Get(PreviousLink(history), k)
  {
    var link := PreviousLink(history);
    var f5 := [(MoveIndex, JNum(|history|))] + link;
    var f4 := [(GameStateAfter, SerializeGameState(after))] + f5;
    var f3 := [(GameStateBefore, SerializeGameState(before))] + f4;
    var f2 := [(Timestamp, JNum(timestamp))] + f3;
    var md := [(MoveType, JStr(moveType))] + f2;
    GetCons(md[0], f2, k);
    GetCons(f2[0], f3, k);
    GetCons(f3[0], f4, k);
    GetCons(f4[0], f5, k);
    GetCons(f5[0], link, k);
  }

  /** The fields of the move data, as property reads. */
  lemma MoveDataFields(history: seq<Record>, moveType: string, before: GameView,
                       after: GameView, timestamp: int)
    ensures var md := MoveData(history, moveType, before, after, timestamp);
            && !HasKey(md, Hash) && !HasKey(md, Valid)
            && Get(md, MoveType) == Some(JStr(moveType))
            && Get(md, Timestamp) == Some(JNum(timestamp))
            && Get(md, GameStateBefore) == Some(SerializeGameState(before))
            && Get(md, GameStateAfter) == Some(SerializeGameState(after))
            && Get(md, MoveIndex) == Some(JNum(|history|))
            && Get(md, PreviousMoveHash)
               == if |history| == 0 then None else Get(history[|history| - 1], Hash)
  {
    MoveDataUnsealed(history, moveType, before, after, timestamp);
    MoveDataGet(history, moveType, before, after, timestamp, MoveType);
    MoveDataGet(history, moveType, before, after, timestamp, Timestamp);
    MoveDataGet(history, moveType, before, after, timestamp, GameStateBefore);
    MoveDataGet(history, moveType, before, after, timestamp, GameStateAfter);
    MoveDataGet(history, moveType, before, after, timestamp, MoveIndex);
    MoveDataGet(history, moveType, before, after, timestamp, PreviousMoveHash);
    LinkGet(history, PreviousMoveHash);
  }

  /** The move data holds neither `hash` nor `valid`. */
  lemma MoveDataUnsealed(history: seq<Record>, moveType: string, before: GameView,
                         after: GameView, timestamp: int)
    ensures var md := MoveData(history, moveType, before, after, timestamp);
            !HasKey(md, Hash) && !HasKey(md, Valid)
  {
    MoveDataGet(history, moveType, before, after, timestamp, Hash);
    MoveDataGet(history, moveType, before, after, timestamp, Valid);
    LinkGet(history, Hash);
    LinkGet(history, Valid);
  }

  /** `createMoveProof`: build the move data, hash it, store it followed
      by `hash` and `valid: true`, and append the record to the history. */
  function CreateMoveProof(H: Hasher, history: seq<Record>, moveType: string,
                           before: GameView, after: GameView, timestamp: int)
    : (r: (seq<Record>, Record))
    ensures r.0 == history + [r.1]
    ensures Created(H, r.1)
    ensures r.1[..|r.1| - 2] == MoveData(history, moveType, before, after, timestamp)
  {
    var md := MoveData(history, moveType, before, after, timestamp);
    var proof := md + Seal(H(md));
    MoveDataFields(history, moveType, before, after, timestamp);
    assert proof[..|proof| - 2] == md;
    assert proof[|proof| - 2..] == Seal(H(md));
    (history + [proof], proof)
  }

  /** What the appended record says: its index is the old history length,
      it links to the last record's hash exactly when there is a last
      record, and it carries the move type, time and both snapshots. */
  lemma CreatedRecordFields(H: Hasher, history: seq<Record>, moveType: string,
                            before: GameView, after: GameView, timestamp: int)
    ensures var p := CreateMoveProof(H, history, moveType, before, after, timestamp).1;
            && Get(p, MoveIndex) == Some(JNum(|history|))
            && Get(p, PreviousMoveHash)
               == (if |history| == 0 then None else Get(history[|history| - 1], Hash))
            && Get(p, MoveType) == Some(JStr(moveType))
            && Get(p, Timestamp) == Some(JNum(timestamp))
            && Get(p, GameStateBefore) == Some(SerializeGameState(before))
            && Get(p, GameStateAfter) == Some(SerializeGameState(after))
  {
    var p := CreateMoveProof(H, history, moveType, before, after, timestamp).1;
    MoveDataFields(history, moveType, before, after, timestamp);
    GetCreated(H, p, MoveIndex);
    GetCreated(H, p, PreviousMoveHash);
    GetCreated(H, p, MoveType);
    GetCreated(H, p, Timestamp);
    GetCreated(H, p, GameStateBefore);
    GetCreated(H, p, GameStateAfter);
  }

  /** `clearHistory`: the empty ledger. The next record created on it is
      number 0 and carries no `previousMoveHash`. */
  function ClearHistory(): (h: seq<Record>)
    ensures |h| == 0
  {
    []
  }

  lemma AfterClearHistory(H: Hasher, moveType: string, before: GameView, after: GameView,
                          timestamp: int)
    ensures var (h, p) := CreateMoveProof(H, ClearHistory(), moveType, before, after, timestamp);
            h == [p] && Get(p, MoveIndex) == Some(JNum(0)) && !HasKey(p, PreviousMoveHash)
  {
    CreatedRecordFields(H, ClearHistory(), moveType, before, after, timestamp);
  }

  /** Which fields are removed before re-hashing a stored record. */
  datatype Rehash =
    | StripHash          // `const { hash, ...moveData } = proof`, as written
    | StripHashAndValid  // also drop `valid`, which was added after hashing

  /** The field list that is re-hashed: never holds `hash`; holds `valid`
      exactly when the record does, unless `valid` is stripped too. */
  function Stripped(p: Record, how: Rehash): (r: Fields)
    ensures !HasKey(r, Hash)
    ensures how == StripHashAndValid ==> !HasKey(r, Valid)
    ensures how == StripHash ==> (HasKey(r, Valid) <==> HasKey(p, Valid))
    ensures forall f :: f in r ==> f in p
  {
    match how
    case StripHash => Remove(p, Hash)
    case StripHashAndValid => Remove(Remove(p, Hash), Valid)
  }

  /** `verifyMoveProof` (with `how == StripHash`): the stored `hash` is a
      string equal to the hash of the stripped record. */
  function VerifyMoveProof(H: Hasher, how: Rehash, p: Record): (ok: bool)
    ensures ok ==> HasKey(p, Hash) && Get(p, Hash).value.JStr?
  {
    match Get(p, Hash)
    case Some(JStr(d)) => H(Stripped(p, how)) == d
    case _ => false
  }

  /** What `verifyMoveProof` checks: the stored `hash` is the string
      hash of the stripped record. */
  lemma VerifyMoveProofMeaning(H: Hasher, how: Rehash, p: Record)
    ensures VerifyMoveProof(H, how, p) <==> Get(p, Hash) == Some(JStr(H(Stripped(p, how))))
  {
  }

  /** Move data followed by a seal, seen through Get and Remove: the seal's
      digest is the stored hash, stripping `hash` leaves `valid` behind,
      stripping both gives the move data back. */
  lemma SealedParts(md: Fields, d: string)
    requires !HasKey(md, Hash) && !HasKey(md, Valid)
    ensures Get(md + Seal(d), Hash) == Some(JStr(d))
    ensures Remove(md + Seal(d), Hash) == md + [(Valid, JBool(true))]
    ensures Stripped(md + Seal(d), StripHashAndValid) == md
  {
    var tail := Seal(d);
    GetAppend(md, tail, Hash);
    RemoveAppend(md, tail, Hash);
    assert tail[1..] == [(Valid, JBool(true))];
    assert Remove(tail, Hash) == [(Valid, JBool(true))];
    RemoveAppend(md, [(Valid, JBool(true))], Valid);
    assert Remove([(Valid, JBool(true))], Valid) == Remove([(Valid, JBool(true))][1..], Valid);
  }

  lemma CreatedParts(H: Hasher, p: Record)
    requires Created(H, p)
    ensures p == p[..|p| - 2] + Seal(H(p[..|p| - 2]))
    ensures Get(p, Hash) == Some(JStr(H(p[..|p| - 2])))
    ensures Remove(p, Hash) == p[..|p| - 2] + [(Valid, JBool(true))]
    ensures Stripped(p, StripHashAndValid) == p[..|p| - 2]
  {
    var md := p[..|p| - 2];
    assert p == md + p[|p| - 2..];
    SealedParts(md, H(md));
  }

  /** The parts of a canonical created record that get hashed are
      canonical too. */
  lemma CreatedCanonicalParts(H: Hasher, p: Record)
    requires Created(H, p) && CanonicalFields(p)
    ensures CanonicalFields(p[..|p| - 2])
    ensures CanonicalFields(Remove(p, Hash))
  {
    CanonicalPrefix(p, |p| - 2);
    CanonicalRemove(p, Hash);
  }

  /** As written, `verifyMoveProof` re-hashes a field list that still holds
      `valid: true`, while the stored hash was taken before `valid` was
      added; with a collision-free hash, no honestly created record ever
      verifies. */
  lemma HonestRecordFailsVerification(H: Hasher, p: Record)
    requires Injective(H) && Created(H, p) && CanonicalFields(p)
    ensures !VerifyMoveProof(H, StripHash, p)
  {
    CreatedParts(H, p);
    CreatedCanonicalParts(H, p);
    var md := p[..|p| - 2];
    assert md + [(Valid, JBool(true))] != md by {
      assert |md + [(Valid, JBool(true))]| != |md|;
    }
  }

  /** Stripping `valid` as well, every honestly created record verifies,
      for any hash function. */
  lemma HonestRecordVerifies(H: Hasher, p: Record)
    requires Created(H, p)
    ensures VerifyMoveProof(H, StripHashAndValid, p)
  {
    CreatedParts(H, p);
  }

  /** Replacing one field's value by a canonical value keeps a canonical
      field list canonical. */
  lemma CanonicalUpdate(md: Fields, f: nat, v: Json)
    requires CanonicalFields(md) && f < |md| && Canonical(v)
    ensures CanonicalFields(md[f := (md[f].0, v)])
  {
    var md' := md[f := (md[f].0, v)];
    forall g | g in md'
      ensures KeyOk(g.0) && Canonical(g.1)
    {
      var i :| 0 <= i < |md'| && md'[i] == g;
      assert md[i] in md;
    }
  }

  /** Move data sealed with the hash of different canonical move data
      fails the corrected check, given a collision-free hash. */
  lemma ForeignSealFails(H: Hasher, md: Fields, md': Fields)
    requires Injective(H) && CanonicalFields(md) && CanonicalFields(md') && md' != md
    requires !HasKey(md', Hash) && !HasKey(md', Valid)
    ensures !VerifyMoveProof(H, StripHashAndValid, md' + Seal(H(md)))
  {
    SealedParts(md', H(md));
  }

  /** Changing one value of canonical move data gives different canonical
      move data with the same keys. */
  lemma EditedMoveData(md: Fields, f: nat, v: Json)
    requires CanonicalFields(md) && !HasKey(md, Hash) && !HasKey(md, Valid)
    requires f < |md| && md[f].1 != v && Canonical(v)
    ensures var md' := md[f := (md[f].0, v)];
            && CanonicalFields(md') && !HasKey(md', Hash) && !HasKey(md', Valid)
            && md' != md
  {
    var md' := md[f := (md[f].0, v)];
    CanonicalUpdate(md, f, v);
    SameKeys(md, md');
    assert md'[f] != md[f];
  }

  /** Updating a position of the move data commutes with sealing it. */
  lemma UpdateBeforeSeal(md: Fields, seal: Fields, f: nat, e: Field)
    requires f < |md|
    ensures (md + seal)[f := e] == md[f := e] + seal
  {
  }

  /** Changing the value of any move-data field of an honest record makes
      the corrected check fail, given a collision-free hash. */
  lemma TamperedRecordFails(H: Hasher, p: Record, f: nat, v: Json)
    requires Injective(H) && Created(H, p) && CanonicalFields(p)
    requires f < |p| - 2 && p[f].1 != v && Canonical(v)
    ensures !VerifyMoveProof(H, StripHashAndValid, p[f := (p[f].0, v)])
  {
    var md := p[..|p| - 2];
    CreatedParts(H, p);
    CreatedCanonicalParts(H, p);
    EditedMoveData(md, f, v);
    UpdateBeforeSeal(md, Seal(H(md)), f, (md[f].0, v));
    ForeignSealFails(H, md, md[f := (md[f].0, v)]);
  }

  /** Under the corrected re-hash, `valid` is covered by nothing: setting
      it to `false` in an honest record still verifies. */
  lemma ValidFlagUnchecked(H: Hasher, p: Record)
    requires Created(H, p)
    ensures VerifyMoveProof(H, StripHashAndValid, p[|p| - 1 := (Valid, JBool(false))])
  {
    var md := p[..|p| - 2];
    var d := JStr(H(md));
    var tail := [(Hash, d), (Valid, JBool(false))];
    var t := p[|p| - 1 := (Valid, JBool(false))];
    assert t == md + tail;
    GetAppend(md, tail, Hash);
    GetCons(tail[0], tail[1..], Hash);
    RemoveAppend(md, tail, Hash);
    assert tail[1..] == [(Valid, JBool(false))];
    assert Remove(tail, Hash) == [(Valid, JBool(false))];
    RemoveAppend(md, [(Valid, JBool(false))], Valid);
    assert Remove([(Valid, JBool(false))], Valid) == Remove([(Valid, JBool(false))][1..], Valid);
    assert Remove(t, Hash) == md + [(Valid, JBool(false))];
    assert Stripped(t, StripHashAndValid) == md;
    assert Get(t, Hash) == Some(d);
  }

  /** Chain link at position i > 0: `previousMoveHash` equals the previous
      record's `hash` (both possibly absent). */
  predicate LinkOk(history: seq<Record>, i: int)
    requires 0 < i < |history|
  {
    Get(history[i], PreviousMoveHash) == Get(history[i - 1], Hash)
  }

  /** Record i passes both checks of `verifyGameHistory`. */
  predicate Passes(H: Hasher, how: Rehash, history: seq<Record>, i: int)
    requires 0 <= i < |history|
  {
    VerifyMoveProof(H, how, history[i]) && (i > 0 ==> LinkOk(history, i))
  }

  /** `{valid: true}` or `{valid: false, invalidMoveIndex, reason?}`;
      `chainBroken` stands for `reason: 'Chain broken'`. */
  datatype Verdict = Verified | Invalid(index: nat, chainBroken: bool)

  /** The verdict of scanning from position i on: the first record that
      fails, with the reason it fails, or Verified when none does. */
  function Scan(H: Hasher, how: Rehash, history: seq<Record>, i: nat): (v: Verdict)
    requires i <= |history|
    ensures v.Verified? <==> forall j :: i <= j < |history| ==> Passes(H, how, history, j)
    ensures v.Invalid? ==>
              && i <= v.index < |history|
              && !Passes(H, how, history, v.index)
              && (forall j :: i <= j < v.index ==> Passes(H, how, history, j))
              && (v.chainBroken <==> VerifyMoveProof(H, how, history[v.index]))
    decreases |history| - i
  {
    if i == |history| then Verified
    else if !VerifyMoveProof(H, how, history[i]) then
      assert !Passes(H, how, history, i);
      Invalid(i, false)
    else if i > 0 && !LinkOk(history, i) then
      assert !Passes(H, how, history, i);
      Invalid(i, true)
    else Scan(H, how, history, i + 1)
  }

  /** The scan reports the first record that fails. */
  lemma ScanFindsFirstFailure(H: Hasher, how: Rehash, history: seq<Record>, i: nat)
    requires i < |history| && !Passes(H, how, history, i)
    requires forall j :: 0 <= j < i ==> Passes(H, how, history, j)
    ensures Scan(H, how, history, 0) == Invalid(i, VerifyMoveProof(H, how, history[i]))
  {
    var r := Scan(H, how, history, 0);
    assert r.Invalid?;
    assert !(r.index < i);
  }

  /** `verifyGameHistory`: the loop that stops at the first record failing
      its own hash check or, after the first, its link to the previous
      record. */
  method VerifyGameHistory(H: Hasher, how: Rehash, history: seq<Record>) returns (v: Verdict)
    ensures v == Scan(H, how, history, 0)
    ensures v.Verified? <==> forall j :: 0 <= j < |history| ==> Passes(H, how, history, j)
  {
    var i := 0;
    while i < |history|
      invariant 0 <= i <= |history|
      invariant forall j :: 0 <= j < i ==> Passes(H, how, history, j)
      invariant Scan(H, how, history, i) == Scan(H, how, history, 0)
    {
      var proof := history[i];
      var isValid := VerifyMoveProof(H, how, proof);
      if !isValid {
        return Invalid(i, false);
      }
      if i > 0 {
        var previousHash := Get(history[i - 1], Hash);
        if Get(proof, PreviousMoveHash) != previousHash {
          return Invalid(i, true);
        }
      }
      i := i + 1;
    }
    return Verified;
  }

  /** Record i is as `createMoveProof` made it: sealed with the hash of
      its move data, numbered i, linked to record i-1 or, for record 0,
      carrying no link. */
  predicate HonestAt(H: Hasher, history: seq<Record>, i: int)
    requires 0 <= i < |history|
  {
    && Created(H, history[i])
    && CanonicalFields(history[i])
    && Get(history[i], MoveIndex) == Some(JNum(i))
    && (i == 0 ==> !HasKey(history[i], PreviousMoveHash))
    && (i > 0 ==> LinkOk(history, i))
  }

  /** A ledger as only `createMoveProof` builds it. */
  predicate Honest(H: Hasher, history: seq<Record>) {
    forall i :: 0 <= i < |history| ==> HonestAt(H, history, i)
  }

  lemma LinkCanonical(history: seq<Record>)
    requires |history| > 0 ==> CanonicalFields(history[|history| - 1])
    ensures CanonicalFields(PreviousLink(history))
  {
    forall g | g in PreviousLink(history)
      ensures KeyOk(g.0) && Canonical(g.1)
    {
      var last := history[|history| - 1];
      assert (Hash, Get(last, Hash).value) in last;
    }
  }

  /** The five fields every move data begins with. */
  function MoveDataHead(history: seq<Record>, moveType: string, before: GameView,
                        after: GameView, timestamp: int): Fields
  {
    [(MoveType, JStr(moveType)), (Timestamp, JNum(timestamp)),
     (GameStateBefore, SerializeGameState(before)), (GameStateAfter, SerializeGameState(after)),
     (MoveIndex, JNum(|history|))]
  }

  lemma MoveDataHeadCanonical(history: seq<Record>, moveType: string, before: GameView,
                              after: GameView, timestamp: int)
    ensures var head := MoveDataHead(history, moveType, before, after, timestamp);
            CanonicalFields(head) && !HasKey(head, PreviousMoveHash)
  {
    var head := MoveDataHead(history, moveType, before, after, timestamp);
    MoveDataHeadKeys(history, moveType, before, after, timestamp);
    MoveDataHeadFields(history, moveType, before, after, timestamp);
    IndexedCanonical(head);
  }

  lemma MoveDataHeadKeys(history: seq<Record>, moveType: string, before: GameView,
                         after: GameView, timestamp: int)
    ensures var head := MoveDataHead(history, moveType, before, after, timestamp);
            DistinctKeys(head) && !HasKey(head, PreviousMoveHash)
  {
    var head := MoveDataHead(history, moveType, before, after, timestamp);
    assert |head| == 5;
    assert head[0].0 == MoveType && head[1].0 == Timestamp && head[2].0 == GameStateBefore;
    assert head[3].0 == GameStateAfter && head[4].0 == MoveIndex;
  }

  lemma MoveDataHeadFields(history: seq<Record>, moveType: string, before: GameView,
                           after: GameView, timestamp: int)
    ensures var head := MoveDataHead(history, moveType, before, after, timestamp);
            forall i :: 0 <= i < |head| ==> KeyOk(head[i].0) && Canonical(head[i].1)
  {
    var head := MoveDataHead(history, moveType, before, after, timestamp);
    forall i | 0 <= i < |head|
      ensures KeyOk(head[i].0) && Canonical(head[i].1)
    {
      if i == 2 {
        SerializeCanonical(before);
      } else if i == 3 {
        SerializeCanonical(after);
      }
    }
  }

  /** The move data is its five leading fields, then the link. */
  lemma MoveDataSplit(history: seq<Record>, moveType: string, before: GameView,
                      after: GameView, timestamp: int)
    ensures MoveData(history, moveType, before, after, timestamp)
            == MoveDataHead(history, moveType, before, after, timestamp) + PreviousLink(history)
  {
  }

  /** The link holds `previousMoveHash` or nothing. */
  lemma LinkKeys(history: seq<Record>)
    ensures forall k :: HasKey(PreviousLink(history), k) ==> k == PreviousMoveHash
  {
  }

  lemma MoveDataCanonical(history: seq<Record>, moveType: string, before: GameView,
                          after: GameView, timestamp: int)
    requires |history| > 0 ==> CanonicalFields(history[|history| - 1])
    ensures CanonicalFields(MoveData(history, moveType, before, after, timestamp))
  {
    var head := MoveDataHead(history, moveType, before, after, timestamp);
    LinkCanonical(history);
    LinkKeys(history);
    MoveDataHeadCanonical(history, moveType, before, after, timestamp);
    CanonicalAppend(head, PreviousLink(history));
    MoveDataSplit(history, moveType, before, after, timestamp);
  }

  /** A record created on a ledger whose last record is canonical is
      canonical: every key it writes is a named one, and written once. */
  lemma CreatedRecordCanonical(H: Hasher, history: seq<Record>, moveType: string,
                               before: GameView, after: GameView, timestamp: int)
    requires |history| > 0 ==> CanonicalFields(history[|history| - 1])
    ensures CanonicalFields(CreateMoveProof(H, history, moveType, before, after, timestamp).1)
  {
    var p := CreateMoveProof(H, history, moveType, before, after, timestamp).1;
    var md := MoveData(history, moveType, before, after, timestamp);
    MoveDataCanonical(history, moveType, before, after, timestamp);
    MoveDataUnsealed(history, moveType, before, after, timestamp);
    var seal := Seal(H(md));
    SealCanonical(H(md));
    CanonicalAppend(md, seal);
    assert p == md + seal;
  }

  /** The seal holds `hash` and `valid` and nothing else. */
  lemma SealCanonical(d: string)
    ensures CanonicalFields(Seal(d))
    ensures forall k :: HasKey(Seal(d), k) ==> k == Hash || k == Valid
  {
  }

  /** Appending a record that is honest at its position keeps a ledger
      honest: the records before it are unchanged. */
  lemma HonestExtend(H: Hasher, history: seq<Record>, p: Record)
    requires Honest(H, history) && HonestAt(H, history + [p], |history|)
    ensures Honest(H, history + [p])
  {
    var h := history + [p];
    forall i | 0 <= i < |history|
      ensures HonestAt(H, h, i)
    {
      assert HonestAt(H, history, i);
      assert h[i] == history[i];
      if i > 0 {
        assert h[i - 1] == history[i - 1];
        assert LinkOk(history, i);
      }
    }
  }

  /** Appending with `createMoveProof` keeps a ledger honest: indices equal
      positions and every record after the first links to its predecessor. */
  lemma CreateKeepsHonest(H: Hasher, history: seq<Record>, moveType: string,
                          before: GameView, after: GameView, timestamp: int)
    requires Honest(H, history)
    ensures Honest(H, CreateMoveProof(H, history, moveType, before, after, timestamp).0)
  {
    var (h, p) := CreateMoveProof(H, history, moveType, before, after, timestamp);
    CreatedRecordFields(H, history, moveType, before, after, timestamp);
    if |history| > 0 {
      assert HonestAt(H, history, |history| - 1);
      assert h[|history| - 1] == history[|history| - 1];
    }
    CreatedRecordCanonical(H, history, moveType, before, after, timestamp);
    assert h[|history|] == p;
    assert HonestAt(H, h, |history|);
    HonestExtend(H, history, p);
  }

  /** As written, verification rejects every non-empty honest ledger at
      record 0 (its own hash check), given a collision-free hash. */
  lemma HonestLedgerRejectedAsWritten(H: Hasher, history: seq<Record>)
    requires Injective(H) && Honest(H, history) && |history| > 0
    ensures Scan(H, StripHash, history, 0) == Invalid(0, false)
  {
    assert HonestAt(H, history, 0);
    HonestRecordFailsVerification(H, history[0]);
  }

  /** With the corrected re-hash, every honest ledger verifies. */
  lemma HonestLedgerAccepted(H: Hasher, history: seq<Record>)
    requires Honest(H, history)
    ensures Scan(H, StripHashAndValid, history, 0) == Verified
  {
    forall j | 0 <= j < |history|
      ensures Passes(H, StripHashAndValid, history, j)
    {
      assert HonestAt(H, history, j);
      HonestRecordVerifies(H, history[j]);
    }
  }

  /** Tampering with one field of record i of an honest ledger is reported
      at exactly index i, as a failed hash check. */
  lemma TamperedLedgerRejected(H: Hasher, history: seq<Record>, i: nat, f: nat, v: Json)
    requires Injective(H) && Honest(H, history)
    requires i < |history| && f < |history[i]| - 2 && history[i][f].1 != v && Canonical(v)
    ensures Scan(H, StripHashAndValid, history[i := history[i][f := (history[i][f].0, v)]], 0)
            == Invalid(i, false)
  {
    var t := history[i := history[i][f := (history[i][f].0, v)]];
    assert HonestAt(H, history, i);
    TamperedRecordFails(H, history[i], f, v);
    assert !Passes(H, StripHashAndValid, t, i);
    forall j | 0 <= j < i
      ensures Passes(H, StripHashAndValid, t, j)
    {
      assert HonestAt(H, history, j);
      HonestRecordVerifies(H, history[j]);
      if j > 0 {
        assert LinkOk(history, j);
      }
    }
    ScanFindsFirstFailure(H, StripHashAndValid, t, i);
  }

  /** Two distinct positions of an honest ledger carry distinct hashes,
      given a collision-free hash. */
  lemma HonestHashesDistinct(H: Hasher, history: seq<Record>, i: nat, j: nat)
    requires Injective(H) && Honest(H, history)
    requires i < j < |history|
    ensures Get(history[i], Hash) != Get(history[j], Hash)
  {
    var p, q := history[i], history[j];
    assert HonestAt(H, history, i) && HonestAt(H, history, j);
    CreatedParts(H, p);
    CreatedParts(H, q);
    var mp, mq := p[..|p| - 2], q[..|q| - 2];
    CreatedCanonicalParts(H, p);
    CreatedCanonicalParts(H, q);
    GetCreated(H, p, MoveIndex);
    GetCreated(H, q, MoveIndex);
    assert mp != mq by {
      assert Get(mp, MoveIndex) != Get(mq, MoveIndex);
    }
  }

  /** A tampered ledger that agrees with an honest one on its first i
      records passes the corrected check on those records. */
  lemma AgreedPrefixPasses(H: Hasher, history: seq<Record>, t: seq<Record>, i: nat)
    requires Honest(H, history)
    requires i <= |t| && i <= |history| && t[..i] == history[..i]
    ensures forall k :: 0 <= k < i ==> Passes(H, StripHashAndValid, t, k)
  {
    forall k | 0 <= k < i
      ensures Passes(H, StripHashAndValid, t, k)
    {
      assert t[k] == t[..i][k] == history[k];
      assert HonestAt(H, history, k);
      HonestRecordVerifies(H, history[k]);
      if k > 0 {
        assert t[k - 1] == t[..i][k - 1] == history[k - 1];
        assert LinkOk(history, k);
      }
    }
  }

  /** Record j of an honest ledger verifies on its own but does not link
      to record i-1 unless it is record i: record 0 carries no link at
      all, and any other record links to the hash of record j-1, which
      differs from that of i-1. */
  lemma ForeignLinkBroken(H: Hasher, history: seq<Record>, i: nat, j: nat)
    requires Injective(H) && Honest(H, history)
    requires 0 < i <= |history| && j < |history| && j != i
    ensures VerifyMoveProof(H, StripHashAndValid, history[j])
    ensures Get(history[j], PreviousMoveHash) != Get(history[i - 1], Hash)
  {
    if j == 0 {
      FirstRecordUnlinked(H, history, i - 1);
    } else {
      assert HonestAt(H, history, j);
      HonestRecordVerifies(H, history[j]);
      LinkedRecordMisplaced(H, history, i, j);
    }
  }

  /** Record j > 0 links to record j-1, whose hash no other record has. */
  lemma LinkedRecordMisplaced(H: Hasher, history: seq<Record>, i: nat, j: nat)
    requires Injective(H) && Honest(H, history)
    requires 0 < i <= |history| && 0 < j < |history| && j != i
    ensures Get(history[j], PreviousMoveHash) != Get(history[i - 1], Hash)
  {
    assert HonestAt(H, history, j);
    if j < i {
      HonestHashesDistinct(H, history, j - 1, i - 1);
    } else {
      HonestHashesDistinct(H, history, i - 1, j - 1);
    }
  }

  /** Record 0 verifies on its own but links to no record. */
  lemma FirstRecordUnlinked(H: Hasher, history: seq<Record>, m: nat)
    requires Honest(H, history) && m < |history|
    ensures VerifyMoveProof(H, StripHashAndValid, history[0])
    ensures Get(history[0], PreviousMoveHash) != Get(history[m], Hash)
  {
    assert HonestAt(H, history, 0) && HonestAt(H, history, m);
    CreatedParts(H, history[m]);
    HonestRecordVerifies(H, history[0]);
  }

  /** A record that verifies on its own but does not link to its
      predecessor, behind a prefix that passes, is where the scan stops. */
  lemma FirstBrokenLink(H: Hasher, t: seq<Record>, i: nat)
    requires 0 < i < |t|
    requires VerifyMoveProof(H, StripHashAndValid, t[i])
    requires Get(t[i], PreviousMoveHash) != Get(t[i - 1], Hash)
    requires forall k :: 0 <= k < i ==> Passes(H, StripHashAndValid, t, k)
    ensures Scan(H, StripHashAndValid, t, 0) == Invalid(i, true)
  {
    assert !Passes(H, StripHashAndValid, t, i);
    ScanFindsFirstFailure(H, StripHashAndValid, t, i);
  }

  /** Reordering, removing or replaying records of an honest ledger is
      reported as a broken chain at the first position that changed: when
      the first i > 0 records are kept and position i holds some other
      record j of the ledger, the scan stops at i. */
  lemma ReorderedLedgerRejected(H: Hasher, history: seq<Record>, t: seq<Record>, i: nat, j: nat)
    requires Injective(H) && Honest(H, history)
    requires 0 < i < |t| && i <= |history| && t[..i] == history[..i]
    requires j < |history| && j != i && t[i] == history[j]
    ensures Scan(H, StripHashAndValid, t, 0) == Invalid(i, true)
  {
    assert t[i - 1] == t[..i][i - 1];
    ForeignLinkBroken(H, history, i, j);
    AgreedPrefixPasses(H, history, t, i);
    FirstBrokenLink(H, t, i);
  }

  /** Splicing a record out of the middle of an honest ledger is reported
      as a broken chain at the position of the removed record. */
  lemma SplicedLedgerRejected(H: Hasher, history: seq<Record>, i: nat)
    requires Injective(H) && Honest(H, history)
    requires 0 < i < |history| - 1
    ensures Scan(H, StripHashAndValid, history[..i] + history[i + 1..], 0) == Invalid(i, true)
  {
    var t := history[..i] + history[i + 1..];
    assert t[..i] == history[..i];
    assert t[i] == history[i + 1];
    ReorderedLedgerRejected(H, history, t, i, i + 1);
  }

  /** Swapping two records of an honest ledger, the earlier one not the
      first, is reported as a broken chain at the earlier position. */
  lemma SwappedLedgerRejected(H: Hasher, history: seq<Record>, i: nat, j: nat)
    requires Injective(H) && Honest(H, history)
    requires 0 < i < j < |history|
    ensures Scan(H, StripHashAndValid, history[i := history[j]][j := history[i]], 0) == Invalid(i, true)
  {
    var t := history[i := history[j]][j := history[i]];
    assert t[..i] == history[..i];
    ReorderedLedgerRejected(H, history, t, i, j);
  }

  /** The record that lands in position 1 after swapping record 0 with
      record j does not link to record j: its link names record 0's hash,
      or it is the old record 0 and has no link at all. */
  lemma FrontSwapLinkBroken(H: Hasher, history: seq<Record>, j: nat)
    requires Injective(H) && Honest(H, history)
    requires 0 < j < |history|
    ensures Get(if j == 1 then history[0] else history[1], PreviousMoveHash) != Get(history[j], Hash)
  {
    assert HonestAt(H, history, j);
    CreatedParts(H, history[j]);
    if j == 1 {
      assert HonestAt(H, history, 0);
    } else {
      assert HonestAt(H, history, 1);
      HonestHashesDistinct(H, history, 0, j);
    }
  }

  /** After swapping record 0 with record j, the first two records are
      honest records, so each verifies on its own. */
  lemma FrontSwapVerifies(H: Hasher, history: seq<Record>, j: nat)
    requires Honest(H, history)
    requires 0 < j < |history|
    ensures var t := history[0 := history[j]][j := history[0]];
            |t| > 1 && VerifyMoveProof(H, StripHashAndValid, t[0])
            && VerifyMoveProof(H, StripHashAndValid, t[1])
  {
    var t := history[0 := history[j]][j := history[0]];
    assert t[0] == history[j];
    assert HonestAt(H, history, j);
    HonestRecordVerifies(H, history[j]);
    if j == 1 {
      assert t[1] == history[0];
      assert HonestAt(H, history, 0);
      HonestRecordVerifies(H, history[0]);
    } else {
      assert t[1] == history[1];
      assert HonestAt(H, history, 1);
      HonestRecordVerifies(H, history[1]);
    }
  }

  /** Record 0 has no link to check, so swapping it with a later record j
      is reported at index 1, not at index 0 where the order first
      changed. Index 1 is particular to a swap: other changes at the
      front are found later (`RotatedLedgerReportedAtEnd`). */
  lemma FrontSwapReportedAtOne(H: Hasher, history: seq<Record>, j: nat)
    requires Injective(H) && Honest(H, history)
    requires 0 < j < |history|
    ensures Scan(H, StripHashAndValid, history[0 := history[j]][j := history[0]], 0) == Invalid(1, true)
  {
    var t := history[0 := history[j]][j := history[0]];
    FrontSwapVerifies(H, history, j);
    FrontSwapLinkBroken(H, history, j);
    assert t[0] == history[j] && t[1] == if j == 1 then history[0] else history[1];
    assert Passes(H, StripHashAndValid, t, 0);
    assert !Passes(H, StripHashAndValid, t, 1);
    ScanFindsFirstFailure(H, StripHashAndValid, t, 1);
  }

  /** Verification never looks at `moveIndex`, and record 0 has no link to
      check: dropping the first record of an honest ledger goes unnoticed. */
  lemma DroppedFirstRecordUndetected(H: Hasher, history: seq<Record>)
    requires Honest(H, history) && |history| > 0
    ensures Scan(H, StripHashAndValid, history[1..], 0) == Verified
  {
    var t := history[1..];
    forall j | 0 <= j < |t|
      ensures Passes(H, StripHashAndValid, t, j)
    {
      assert HonestAt(H, history, j + 1);
      HonestRecordVerifies(H, t[j]);
      if j > 0 {
        assert LinkOk(history, j + 1);
      }
    }
  }

  /** Moving the first record of an honest ledger to the end goes
      unnoticed until the end: the records before it pass, and only the
      old record 0, which carries no link, fails there. */
  lemma RotatedLedgerReportedAtEnd(H: Hasher, history: seq<Record>)
    requires Honest(H, history) && |history| > 1
    ensures Scan(H, StripHashAndValid, history[1..] + [history[0]], 0) == Invalid(|history| - 1, true)
  {
    var t := history[1..] + [history[0]];
    var n := |history| - 1;
    RotatedPrefixPasses(H, history);
    assert t[n] == history[0] && t[n - 1] == history[n];
    FirstRecordUnlinked(H, history, n);
    FirstBrokenLink(H, t, n);
  }

  /** The records moved one place forward keep passing, the old record 1
      now first. */
  lemma RotatedPrefixPasses(H: Hasher, history: seq<Record>)
    requires Honest(H, history) && |history| > 1
    ensures var t := history[1..] + [history[0]];
            forall k :: 0 <= k < |history| - 1 ==> Passes(H, StripHashAndValid, t, k)
  {
    var t := history[1..] + [history[0]];
    forall k | 0 <= k < |history| - 1
      ensures Passes(H, StripHashAndValid, t, k)
    {
      assert t[k] == history[k + 1];
      assert HonestAt(H, history, k + 1);
      HonestRecordVerifies(H, history[k + 1]);
      if k > 0 {
        assert t[k - 1] == history[k];
      }
    }
  }
}

=== FILE: lines.dfy ===
/** Removal of full rows (`clearLines` in game/TetrisGame.js): the
    reference definition, the source's bottom-up splice loop proved equal
    to it, and the properties the game relies on. */
module Lines {
  import opened Board

  /** `row.every(cell => cell !== 0)`. */
  predicate Full(row: seq<Cell>) {
    forall c :: 0 <= c < |row| ==> row[c].Filled?
  }

  /** The rows that are not full, in their original order. */
  function Keep(b: Grid): (k: Grid)
    ensures |k| <= |b|
    ensures forall i :: 0 <= i < |k| ==> !Full(k[i])
    ensures forall row :: row in k <==> row in b && !Full(row)
  {
    if |b| == 0 then []
    else
      var rest := Keep(b[1..]);
      assert forall row :: row in b <==> row == b[0] || row in b[1..];
      if Full(b[0]) then rest else [b[0]] + rest
  }

  /** The number of full rows. */
  function FullCount(b: Grid): nat {
    if |b| == 0 then 0 else (if Full(b[0]) then 1 else 0) + FullCount(b[1..])
  }

  lemma {:induction false} KeepCount(b: Grid)
    ensures |b| - |Keep(b)| == FullCount(b)
  {
    if |b| > 0 {
      KeepCount(b[1..]);
    }
  }

  function EmptyRows(n: nat): (rows: Grid)
    ensures |rows| == n
    ensures forall i :: 0 <= i < n ==> rows[i] == EmptyRow()
  {
    seq(n, _ => EmptyRow())
  }

  /** The board after line clearing: the full rows removed, the others
      kept in order and pushed down, and as many empty rows on top. */
  function Cleared(b: Grid): Grid {
    EmptyRows(|b| - |Keep(b)|) + Keep(b)
  }

  /** The number of rows `Cleared` removes. */
  function ClearedCount(b: Grid): nat {
    |b| - |Keep(b)|
  }

  /** One more row of the input, taken from the bottom of the
      unscanned part, joins the scanned suffix. */
  lemma KeepExtend(b0: Grid, p: nat)
    requires 0 < p <= |b0|
    ensures Keep(b0[p - 1..]) == (if Full(b0[p - 1]) then [] else [b0[p - 1]]) + Keep(b0[p..])
  {
    assert b0[p - 1..][1..] == b0[p..];
  }

  /** The loop's picture of the board: `cleared` empty rows, the unscanned
      rows of the input, then the non-full rows of the scanned part. */
  function Scanning(b0: Grid, p: nat, cleared: nat): Grid
    requires p <= |b0|
  {
    EmptyRows(cleared) + b0[..p] + Keep(b0[p..])
  }

  /** The loop invariant of `ClearLines`: rows at or below `row` that
      are not yet scanned come from the input; once the whole input is
      scanned (`p == 0`) the scan walks through the empty rows on top. */
  predicate ScanState(b0: Grid, b: Grid, p: nat, cleared: nat, row: int) {
    && p <= |b0|
    && b == Scanning(b0, p, cleared)
    && cleared == |b0[p..]| - |Keep(b0[p..])|
    && -1 <= row < cleared + p
    && (p > 0 ==> row == cleared + p - 1)
  }

  lemma EmptyRowNotFull()
    ensures !Full(EmptyRow())
  {
    assert EmptyRow()[0] == Empty;
  }

  /** Once the input is scanned, the scan only meets empty rows, so a
      full row at the scan position is still an input row. */
  lemma FullRowIsInput(b0: Grid, b: Grid, p: nat, cleared: nat, row: int)
    requires ScanState(b0, b, p, cleared, row) && row >= 0 && Full(b[row])
    ensures p > 0
  {
    assert p == 0 ==> b[row] == EmptyRow();
    EmptyRowNotFull();
  }

  /** The picture with the bottom unscanned row split off. */
  lemma ScanningSplit(b0: Grid, p: nat, cleared: nat)
    requires 0 < p <= |b0|
    ensures Scanning(b0, p, cleared)
            == (EmptyRows(cleared) + b0[..p - 1]) + [b0[p - 1]] + Keep(b0[p..])
  {
    assert b0[..p] == b0[..p - 1] + [b0[p - 1]];
  }

  /** Splicing out the full row at the scan position and pushing an empty
      row on top is the picture with that row scanned. */
  lemma SpliceFullRow(b0: Grid, b: Grid, p: nat, cleared: nat, row: int)
    requires ScanState(b0, b, p, cleared, row) && row >= 0 && Full(b[row])
    ensures p > 0
    ensures ScanState(b0, [EmptyRow()] + b[..row] + b[row + 1..], p - 1, cleared + 1, row)
  {
    FullRowIsInput(b0, b, p, cleared, row);
    KeepExtend(b0, p);
    ScanningSplit(b0, p, cleared);
    var front := EmptyRows(cleared) + b0[..p - 1];
    assert |front| == row;
    assert b[..row] == front;
    assert b[row + 1..] == Keep(b0[p..]);
    assert [EmptyRow()] + EmptyRows(cleared) == EmptyRows(cleared + 1);
    assert [EmptyRow()] + b[..row] + b[row + 1..] == Scanning(b0, p - 1, cleared + 1);
  }

  /** Stepping past a row that is not full leaves the board as it is. */
  lemma PassRow(b0: Grid, b: Grid, p: nat, cleared: nat, row: int)
    requires ScanState(b0, b, p, cleared, row) && row >= 0 && !Full(b[row])
    ensures ScanState(b0, b, if p > 0 then p - 1 else 0, cleared, row - 1)
  {
    if p > 0 {
      KeepExtend(b0, p);
      assert b0[..p] == b0[..p - 1] + [b0[p - 1]];
      assert b[row] == b0[p - 1];
    }
  }

  /** Before the scan nothing is scanned and nothing is cleared. */
  lemma ScanStart(b0: Grid)
    ensures ScanState(b0, b0, |b0|, 0, |b0| - 1)
  {
    assert b0[|b0|..] == [];
    assert b0[..|b0|] == b0;
  }

  /** When the scan has passed the top row the whole input is scanned and
      the picture is the cleared board. */
  lemma ScanDone(b0: Grid, b: Grid, p: nat, cleared: nat, row: int)
    requires ScanState(b0, b, p, cleared, row) && row < 0
    ensures b == Cleared(b0)
    ensures cleared == ClearedCount(b0)
  {
    assert p == 0;
    assert b0[p..] == b0;
    assert b0[..p] == [];
  }

  /** The source's loop: scan from the bottom row up; a full row is spliced
      out, an empty row is pushed on top, and the same index is examined
      again because the rows above have shifted down into it. */
  method ClearLines(b0: Grid) returns (b: Grid, cleared: nat)
    ensures b == Cleared(b0)
    ensures cleared == ClearedCount(b0)
  {
    b := b0;
    cleared := 0;
    var row := |b0| - 1;
    ghost var p: nat := |b0|;
    ScanStart(b0);
    while row >= 0
      invariant ScanState(b0, b, p, cleared, row)
      decreases p, row + 1
    {
      if Full(b[row]) {
        SpliceFullRow(b0, b, p, cleared, row);
        b := [EmptyRow()] + b[..row] + b[row + 1..];
        cleared := cleared + 1;
        p := p - 1;
      } else {
        PassRow(b0, b, p, cleared, row);
        p := if p > 0 then p - 1 else 0;
        row := row - 1;
      }
    }
    ScanDone(b0, b, p, cleared, row);
  }

  /** Line clearing keeps the board 20 rows of 10 cells. */
  lemma ClearedWellFormed(b: Grid)
    requires WellFormed(b)
    ensures WellFormed(Cleared(b))
  {
    var k := Keep(b);
    forall r | 0 <= r < |k|
      ensures |k[r]| == Width
    {
      assert k[r] in b;
    }
  }

  /** No full row survives line clearing. */
  lemma ClearedHasNoFullRow(b: Grid)
    ensures forall r :: 0 <= r < |Cleared(b)| ==> !Full(Cleared(b)[r])
  {
    var c := Cleared(b);
    var n := ClearedCount(b);
    forall r | 0 <= r < |c|
      ensures !Full(c[r])
    {
      if r < n {
        assert c[r] == EmptyRow();
        assert c[r][0] == Empty;
      } else {
        assert c[r] == Keep(b)[r - n];
      }
    }
  }

  /** The rows removed are exactly the full ones: the removed count is the
      number of full rows, and the surviving rows are the non-full ones,
      in order, beneath `count` empty rows. */
  lemma ClearedRemovesExactlyFullRows(b: Grid)
    ensures ClearedCount(b) == FullCount(b)
    ensures Cleared(b)[..ClearedCount(b)] == EmptyRows(FullCount(b))
    ensures Cleared(b)[ClearedCount(b)..] == Keep(b)
    ensures forall row :: row in Cleared(b)[ClearedCount(b)..] <==> row in b && !Full(row)
  {
    KeepCount(b);
  }

  /** Clearing a board that has no full row changes nothing, so clearing
      is idempotent. */
  lemma {:induction false} KeepNoFull(b: Grid)
    requires forall r :: 0 <= r < |b| ==> !Full(b[r])
    ensures Keep(b) == b
  {
    if |b| > 0 {
      KeepNoFull(b[1..]);
    }
  }

  lemma ClearedIdempotent(b: Grid)
    ensures Cleared(Cleared(b)) == Cleared(b)
  {
    ClearedHasNoFullRow(b);
    KeepNoFull(Cleared(b));
  }
}

=== FILE: shapes.dfy ===
/** Tetromino geometry: shape matrices, clockwise rotation and the
    seven-piece catalogue (game/TetrisGame.js). */
module Shapes {

  /** A shape matrix; `true` stands for a filled (truthy `1`) cell. */
  type Shape = seq<seq<bool>>

  /** Rectangular with at least one row and one column: every shape the
      game builds has this form, and rotation relies on it (it reads the
      column count off row 0). */
  predicate IsMatrix(m: Shape) {
    && |m| > 0
    && |m[0]| > 0
    && forall i :: 0 <= i < |m| ==> |m[i]| == |m[0]|
  }

  /** At least one filled cell. */
  predicate HasBlock(m: Shape) {
    exists i, j :: 0 <= i < |m| && 0 <= j < |m[i]| && m[i][j]
  }

  /** Clockwise quarter turn: an r x c matrix becomes a c x r matrix, and
      the cell in row i, column j moves to row j, column r-1-i. */
  function Rotate(m: Shape): (out: Shape)
    requires IsMatrix(m)
    ensures IsMatrix(out)
    ensures |out| == |m[0]| && |out[0]| == |m|
    ensures forall i, j :: 0 <= i < |m| && 0 <= j < |m[i]| ==> out[j][|m| - 1 - i] == m[i][j]
  {
    seq(|m[0]|, j requires 0 <= j < |m[0]| =>
      seq(|m|, k requires 0 <= k < |m| => m[|m| - 1 - k][j]))
  }

  /** `b` is `a` turned by half a turn: same dimensions, and cell (i, j)
      of `b` is cell (r-1-i, c-1-j) of `a`. */
  predicate HalfTurn(a: Shape, b: Shape)
    requires IsMatrix(a)
  {
    && IsMatrix(b)
    && |b| == |a| && |b[0]| == |a[0]|
    && forall i, j :: 0 <= i < |a| && 0 <= j < |a[0]| ==> b[i][j] == a[|a| - 1 - i][|a[0]| - 1 - j]
  }

  /** Two quarter turns make a half turn. */
  lemma RotateTwice(m: Shape)
    requires IsMatrix(m)
    ensures HalfTurn(m, Rotate(Rotate(m)))
  {
    var r1 := Rotate(m);
    var r2 := Rotate(r1);
    forall i, j | 0 <= i < |m| && 0 <= j < |m[0]|
      ensures r2[i][j] == m[|m| - 1 - i][|m[0]| - 1 - j]
    {
      assert r2[i][j] == r1[|r1| - 1 - j][i];
      assert r1[|r1| - 1 - j][i] == m[|m| - 1 - i][|m[0]| - 1 - j];
    }
  }

  /** Two half turns give back the original matrix. */
  lemma HalfTurnTwice(a: Shape, b: Shape, c: Shape)
    requires IsMatrix(a) && HalfTurn(a, b) && HalfTurn(b, c)
    ensures c == a
  {
    forall i | 0 <= i < |a|
      ensures c[i] == a[i]
    {
      assert |c[i]| == |c[0]| == |a[0]| == |a[i]|;
      forall j | 0 <= j < |a[0]|
        ensures c[i][j] == a[i][j]
      {
        assert c[i][j] == b[|a| - 1 - i][|a[0]| - 1 - j];
      }
    }
  }

  /** Four quarter turns give back the original matrix. */
  lemma RotateFourTimes(m: Shape)
    requires IsMatrix(m)
    ensures Rotate(Rotate(Rotate(Rotate(m)))) == m
  {
    RotateTwice(m);
    var h := Rotate(Rotate(m));
    RotateTwice(h);
    HalfTurnTwice(m, h, Rotate(Rotate(h)));
  }

  /** Rotation neither creates nor loses filled cells' existence. */
  lemma RotateKeepsBlock(m: Shape)
    requires IsMatrix(m) && HasBlock(m)
    ensures HasBlock(Rotate(m))
  {
    var i, j :| 0 <= i < |m| && 0 <= j < |m[i]| && m[i][j];
    assert Rotate(m)[j][|m| - 1 - i];
  }

  /** The seven tetrominoes, in catalogue order. */
  datatype Kind = I | O | T | S | Z | J | L

  /** The catalogue's colour tokens. */
  datatype Color = Cyan | Yellow | Purple | Green | Red | Blue | Orange

  function Hex(c: Color): string {
    match c
    case Cyan => "#00ffff"
    case Yellow => "#ffff00"
    case Purple => "#800080"
    case Green => "#00ff00"
    case Red => "#ff0000"
    case Blue => "#0000ff"
    case Orange => "#ffa500"
  }

  /** Distinct colours have distinct colour strings. */
  lemma HexInjective(a: Color, b: Color)
    ensures Hex(a) == Hex(b) ==> a == b
  {
  }

  /** A matrix of the source's 0/1 literals read as truthiness. */
  function Bits(rows: seq<seq<int>>): (m: Shape)
    ensures |m| == |rows|
    ensures forall i :: 0 <= i < |rows| ==> |m[i]| == |rows[i]|
    ensures forall i, j :: 0 <= i < |rows| && 0 <= j < |rows[i]| ==> (m[i][j] <==> rows[i][j] != 0)
  {
    seq(|rows|, i requires 0 <= i < |rows| =>
      seq(|rows[i]|, j requires 0 <= j < |rows[i]| => rows[i][j] != 0))
  }

  function ShapeOf(k: Kind): (m: Shape)
    ensures IsMatrix(m) && HasBlock(m)
    ensures |m| <= 2 && 2 <= |m[0]| <= 4
  {
    var m := match k
      case I => Bits([[1, 1, 1, 1]])
      case O => Bits([[1, 1], [1, 1]])
      case T => Bits([[0, 1, 0], [1, 1, 1]])
      case S => Bits([[0, 1, 1], [1, 1, 0]])
      case Z => Bits([[1, 1, 0], [0, 1, 1]])
      case J => Bits([[1, 0, 0], [1, 1, 1]])
      case L => Bits([[0, 0, 1], [1, 1, 1]]);
    assert m[|m| - 1][1];
    m
  }

  function ColorOf(k: Kind): Color {
    match k
    case I => Cyan
    case O => Yellow
    case T => Purple
    case S => Green
    case Z => Red
    case J => Blue
    case L => Orange
  }
}

=== FILE: snapshot.dfy ===
/** The game-state snapshot (`getGameState`) and the part of it that the
    ledger records (`serializeGameState`, game/ProofSystem.js), as JSON. */
module Snapshot {
  import opened Json
  import opened Shapes
  import opened Board

  /** What `getGameState` hands out: deep copies of the board and the
      current piece, the three counters and the game-over flag. */
  datatype GameView = GameView(
    board: Grid,
    currentPiece: Piece,
    score: int,
    level: int,
    lines: int,
    gameOver: bool)

  /** A board cell as stored: the number 0 or the colour string. */
  function CellJson(c: Cell): Json {
    match c
    case Empty => JNum(0)
    case Filled(color) => JStr(Hex(color))
  }

  function RowJson(row: seq<Cell>): Json {
    JArr(seq(|row|, i requires 0 <= i < |row| => CellJson(row[i])))
  }

  function BoardJson(b: Grid): Json {
    JArr(seq(|b|, i requires 0 <= i < |b| => RowJson(b[i])))
  }

  function ShapeJson(s: Shape): Json {
    JArr(seq(|s|, i requires 0 <= i < |s| =>
      JArr(seq(|s[i]|, j requires 0 <= j < |s[i]| => JNum(if s[i][j] then 1 else 0)))))
  }

  /** The piece object `{shape, color, x, y}`, keys in that order. */
  function PieceJson(p: Piece): Json {
    JObj([(Key.Shape, ShapeJson(p.shape)), (Key.Color, JStr(Hex(p.color))),
          (X, JNum(p.x)), (Y, JNum(p.y))])
  }

  /** `serializeGameState`: the object `{board, currentPiece, score, level,
      lines}`, keys in that order; `gameOver` is not carried over. */
  function SerializeGameState(v: GameView): (r: Json)
    ensures r.JObj?
    ensures |r.fields| == 5
    ensures r.fields[0].0 == Key.Board && r.fields[1].0 == CurrentPiece
    ensures r.fields[2].0 == Score && r.fields[3].0 == Level && r.fields[4].0 == Lines
  {
    JObj([(Key.Board, BoardJson(v.board)), (CurrentPiece, PieceJson(v.currentPiece)),
          (Score, JNum(v.score)), (Level, JNum(v.level)), (Lines, JNum(v.lines))])
  }

  lemma CellJsonInjective(a: Cell, b: Cell)
    ensures CellJson(a) == CellJson(b) ==> a == b
  {
    if a.Filled? && b.Filled? {
      HexInjective(a.color, b.color);
    }
  }

  lemma RowJsonInjective(a: seq<Cell>, b: seq<Cell>)
    requires RowJson(a) == RowJson(b)
    ensures a == b
  {
    assert |a| == |RowJson(a).items| == |RowJson(b).items| == |b|;
    forall i | 0 <= i < |a|
      ensures a[i] == b[i]
    {
      assert RowJson(a).items[i] == RowJson(b).items[i];
      CellJsonInjective(a[i], b[i]);
    }
  }

  lemma BoardJsonInjective(a: Grid, b: Grid)
    requires BoardJson(a) == BoardJson(b)
    ensures a == b
  {
    assert |a| == |BoardJson(a).items| == |BoardJson(b).items| == |b|;
    forall i | 0 <= i < |a|
      ensures a[i] == b[i]
    {
      assert BoardJson(a).items[i] == BoardJson(b).items[i];
      RowJsonInjective(a[i], b[i]);
    }
  }

  lemma ShapeJsonInjective(a: Shape, b: Shape)
    requires ShapeJson(a) == ShapeJson(b)
    ensures a == b
  {
    assert |a| == |ShapeJson(a).items| == |ShapeJson(b).items| == |b|;
    forall i | 0 <= i < |a|
      ensures a[i] == b[i]
    {
      var ra, rb := ShapeJson(a).items[i], ShapeJson(b).items[i];
      assert ra == rb;
      assert |a[i]| == |ra.items| == |rb.items| == |b[i]|;
      forall j | 0 <= j < |a[i]|
        ensures a[i][j] == b[i][j]
      {
        assert ra.items[j] == rb.items[j];
      }
    }
  }

  lemma PieceJsonInjective(a: Piece, b: Piece)
    requires PieceJson(a) == PieceJson(b)
    ensures a == b
  {
    var fa, fb := PieceJson(a).fields, PieceJson(b).fields;
    assert fa[0] == fb[0] && fa[1] == fb[1];
    ShapeJsonInjective(a.shape, b.shape);
    HexInjective(a.color, b.color);
  }

  /** The recorded snapshot determines exactly the board, the current
      piece, the score, the level and the line count: two views have the
      same snapshot if and only if they agree on those five, whatever their
      game-over flags. */
  lemma SerializeKeepsExactlyFiveFields(v: GameView, w: GameView)
    ensures SerializeGameState(v) == SerializeGameState(w)
            <==> (v.board == w.board && v.currentPiece == w.currentPiece
                  && v.score == w.score && v.level == w.level && v.lines == w.lines)
  {
    if SerializeGameState(v) == SerializeGameState(w) {
      var fv, fw := SerializeGameState(v).fields, SerializeGameState(w).fields;
      assert fv[0] == fw[0] && fv[1] == fw[1] && fv[2] == fw[2] && fv[3] == fw[3] && fv[4] == fw[4];
      BoardJsonInjective(v.board, w.board);
      PieceJsonInjective(v.currentPiece, w.currentPiece);
    }
  }

  lemma RowCanonical(row: seq<Cell>)
    ensures Canonical(RowJson(row))
  {
    var rj := RowJson(row);
    forall y | y in rj.items
      ensures Canonical(y)
    {
      var j :| 0 <= j < |rj.items| && rj.items[j] == y;
      assert y == CellJson(row[j]);
    }
  }

  lemma BoardCanonical(b: Grid)
    ensures Canonical(BoardJson(b))
  {
    var bj := BoardJson(b);
    forall x | x in bj.items
      ensures Canonical(x)
    {
      var i :| 0 <= i < |bj.items| && bj.items[i] == x;
      RowCanonical(b[i]);
    }
  }

  lemma ShapeRowCanonical(r: seq<bool>)
    ensures Canonical(JArr(seq(|r|, j requires 0 <= j < |r| => JNum(if r[j] then 1 else 0))))
  {
  }

  lemma PieceCanonical(p: Piece)
    ensures Canonical(PieceJson(p))
  {
    var sj := ShapeJson(p.shape);
    forall x | x in sj.items
      ensures Canonical(x)
    {
      var i :| 0 <= i < |sj.items| && sj.items[i] == x;
      ShapeRowCanonical(p.shape[i]);
    }
    assert Canonical(sj);
  }

  /** Snapshots are canonical JSON: every key is a named one, and
      written once. */
  lemma SerializeCanonical(v: GameView)
    ensures Canonical(SerializeGameState(v))
  {
    var fs := SerializeGameState(v).fields;
    assert DistinctKeys(fs);
    SerializeFieldsCanonical(v);
    IndexedCanonical(fs);
  }

  lemma SerializeFieldsCanonical(v: GameView)
    ensures var fs := SerializeGameState(v).fields;
            forall i :: 0 <= i < |fs| ==> KeyOk(fs[i].0) && Canonical(fs[i].1)
  {
    var fs := SerializeGameState(v).fields;
    forall i | 0 <= i < |fs|
      ensures KeyOk(fs[i].0) && Canonical(fs[i].1)
    {
      if i == 0 {
        BoardCanonical(v.board);
      } else if i == 1 {
        PieceCanonical(v.currentPiece);
      }
    }
  }
}

=== FILE: wrappers.dfy ===
/** The optional value that stands for JavaScript's `null` / `undefined`. */
module Wrappers {

  datatype Option<+T> = None | Some(value: T)
}
